=== FILE: README.md ===
# SecureChange request formatter — a Dafny model of the conversion core

`scformatter.py` converts firewall change requests kept in Excel workbooks
into one workbook in the "accept" format. Each input sheet has unlabelled,
inconsistently ordered columns. This project models the decision logic of
that conversion as pure Dafny functions and proves properties about it:

- `safe_strip`, the normalisation every cell goes through (`Cells`, built on
  the string operations in `Text`);
- the configuration check and the reverse index from header text to logical
  field (`Configuration`);
- header resolution over the first two rows of a sheet, and the
  missing-field check that decides whether a sheet is kept (`Headers`);
- the per-row validation and transformation: source and destination lists,
  the service list with port shorthand and substitution rules, the action,
  the comment, and the decision to write, drop silently or report a row
  (`Rows`). The decision is stated on the seven normalised field texts
  (`Rows.Decide`), and `Rows.Normalize` reads those texts from a row;
- the sheet loop that writes accepted rows to gap-free output rows, and the
  run over every sheet of every input workbook (`Convert`);
- worked rows and header layouts, proved (`Scenarios`).

A configuration is modelled as an ordered sequence of (key, header text)
pairs plus the ordered (pattern, replacement) pairs of `service_replace`,
which is what the JSON object supplies. A cell is text, an integer or empty.

The model follows the code where a reader might expect otherwise:

- When a header text appears more than once in rows 1–2, or two keys share a
  header text, the later one wins, not the first. The code builds both maps
  with dict comprehensions (scformatter.py:171 and 191), and a later entry
  overwrites an earlier one (`Headers.ResolveLastInScan`).
- Source and destination keep empty and untrimmed fragments. `re.split`
  followed by `"; ".join` (scformatter.py:212, 215) turns `"a,,b"` into
  `"a; ; b"`. Only the service list drops empty fragments (line 219).
- A row is dropped silently when it has exactly three reasons (line 237).
  This is not what the `# Skip empty line` comment on that line says, which
  is "source, destination and service all empty"; see Findings.
- A service cell that holds only delimiters (say `","`) is not empty, so it
  records no reason. Without substitution rules its value becomes `""`, and
  the row is written with an empty service (`Rows.ServiceOfDelimitersOnly`).
- Header row 2 is scanned for headers and is also read as the first data row
  (line 208 starts the data rows at row 2).

## Model

| member | source | states |
|---|---|---|
| Text.Strip | scformatter.py:139 | `str.strip()`: the result is a slice of the input with only whitespace around it, and it neither starts nor ends with whitespace |
| Text.StripPadding | scformatter.py:139 | stripping whitespace around a text whose ends are not whitespace gives back exactly that text |
| Text.StripIdempotent | scformatter.py:139 | stripping twice is stripping once |
| Text.StripEmptyIffAllSpace | scformatter.py:139 | the stripped text is empty exactly when the input is all whitespace |
| Text.Split | scformatter.py:212 | `re.split` on newline or comma yields one fragment more than there are delimiters, and no fragment holds a delimiter |
| Text.JoinSplit | scformatter.py:212 | splitting and joining with "; " is replacing each delimiter by "; ", so every fragment survives, empty ones included |
| Text.SplitJoin | scformatter.py:218 | delimiter-free fragments joined with one delimiter split back into the same fragments |
| Text.ReplaceAbsent | scformatter.py:221-222 | `str.replace` with a non-empty pattern that does not occur leaves the text unchanged |
| Text.ReplaceBySelf | scformatter.py:221-222 | `str.replace` of a pattern by itself (the empty pattern included) changes nothing |
| Text.InsertEverywhere | scformatter.py:221-222 | `str.replace("", rep)` is longer than the text by one more than its length times the length of `rep` |
| Text.InsertEverywhereAt | scformatter.py:221-222 | in `str.replace("", rep)` the k-th character of the text follows the (k+1)-th copy of `rep`, which starts at k times one more than the length of `rep` |
| Text.InsertEverywhereEnd | scformatter.py:221-222 | `str.replace("", rep)` ends with a copy of `rep` |
| Text.ReplaceAll | scformatter.py:221-222 | `s.replace(p, rep)` with a non-empty pattern is `rep.join(s.split(p))`: the pieces between the non-overlapping occurrences of `p`, found left to right, joined with `rep` |
| Text.SplitOnAbsent | scformatter.py:221-222 | `s.split(p)` of a text in which the non-empty `p` does not occur is the text alone |
| Text.SplitOnLeftmost | scformatter.py:221-222 | the first piece of `s.split(p)` is the text before the leftmost occurrence of `p`, and the remaining pieces are the split of the text after that occurrence |
| Text.ReplaceLeftmost | scformatter.py:221-222 | `s.replace(p, rep)` with a non-empty pattern replaces the leftmost occurrence by `rep` and goes on with the text after it; with `ReplaceAbsent` this determines the result for every text |
| Text.SplitOnJoin | scformatter.py:221-222 | splitting on a non-empty pattern and joining with it gives the text back |
| Text.ApplyReplacementsAbsent | scformatter.py:221-222 | a text in which no rule's pattern occurs is a fixed point of the substitution rules applied in order |
| Text.ApplyReplacementsAppend | scformatter.py:221-222 | the substitution rules act one after the other, in their order: two lists of rules in sequence act as the first list and then the second |
| Text.ApplyOneReplacement | scformatter.py:221-222 | a single rule is one `str.replace` of its pattern by its replacement |
| Text.NatToDecimal | scformatter.py:139 | `str(n)` of a natural number is a non-empty digit string without a leading zero |
| Text.IntToDecimal | scformatter.py:139 | `str(i)` is a digit string starting with "0" only for 0 when `i` is not negative, and "-" followed by a digit string without a leading zero when it is negative |
| Text.NatDecimalRoundTrip | scformatter.py:139 | the numeral `str(n)` reads back as `n` |
| Text.IntDecimalRoundTrip | scformatter.py:139 | `str(i)` of any integer is a numeral (with "-" when negative) that reads back as `i` |
| Cells.SafeStrip | scformatter.py:128-142 | a text cell becomes the slice of its text between leading and trailing whitespace, starting and ending with no whitespace; empty cells and integer 0 become ""; any other integer becomes its numeral without a leading zero (after "-" when negative), which reads back as the value; the result is empty exactly for empty, zero or all-whitespace cells |
| Cells.SafeStripIdempotent | scformatter.py:128-142 | normalising an already normalised cell changes nothing |
| Configuration.HeaderOf | scformatter.py:210-226 | `configs[key]` is the header text configured for that key |
| Configuration.ConfigErrors | scformatter.py:159-168 | the run is rejected exactly when a required key is missing, there are no inputs, or the output name is empty; the messages are exactly those of the failed conditions, one each, in the order of lines 160-165: the configuration message first, the empty-output message last |
| Configuration.ReverseIndex | scformatter.py:171 | the index holds exactly the configured header texts, and each maps to the key of the last entry with that text |
| Configuration.ReverseIndexInverts | scformatter.py:171 | with distinct keys, the key found for a header text is configured with exactly that text and is never `service_replace` |
| Headers.Scan | scformatter.py:191 | a field is resolved exactly when some scanned cell's text maps to it, and its column is that of the last such cell |
| Headers.ScanOrderAt | scformatter.py:188-190 | every scanned position is a cell of row 1 or row 2 with its normalised text |
| Headers.ScanOrderHas | scformatter.py:188-190 | every cell of rows 1 and 2 is scanned |
| Headers.ResolvedColumnsMatchHeaders | scformatter.py:188-191 | a resolved field is a configured key, and row 1 or row 2 holds its configured header text at the resolved column |
| Headers.HeaderCellsResolve | scformatter.py:188-191 | every field whose header text appears in rows 1–2 is resolved |
| Headers.HeaderScanRows | scformatter.py:188-190 | the scanned cells are those of row 1 followed by those of row 2 |
| Headers.HeaderScanAt | scformatter.py:188-190 | cell (r, c) of the header rows is scanned, with its normalised text, at position c in row 1 and after all of row 1 in row 2 |
| Headers.HeaderScanCovers | scformatter.py:188-190 | every scanned position is the position of some cell of the header rows |
| Headers.ResolveLastInScan | scformatter.py:188-191 | a resolved field's column holds, in row 1 or row 2, a cell whose text the index maps to that field, and no cell scanned after it (later in the same row, or anywhere in row 2 after row 1) maps to the field |
| Headers.CheckColumns | scformatter.py:192-196 | a sheet is kept exactly when every required field resolved; otherwise the missing set is non-empty and is exactly the required fields that did not resolve |
| Headers.FullIntersection | scformatter.py:192 | comparing the size of the intersection with the size of the required set is a subset test |
| Rows.ListValue | scformatter.py:211-216 | a source or destination value is the cell text with each newline and comma replaced by "; " and nothing else changed |
| Rows.NonEmpty | scformatter.py:219 | the filtered service fragments are exactly the non-empty ones, and nothing is lost when none is empty |
| Rows.NonEmptyAppend | scformatter.py:219 | filtering a concatenation is concatenating the filtered parts, so order and repeats are kept |
| Rows.NonEmptyOne | scformatter.py:219 | one fragment is kept exactly when it is not empty |
| Rows.TagAll | scformatter.py:219 | one output fragment per input fragment, in the same order, each with the port shorthand applied |
| Rows.ServiceOfList | scformatter.py:217-220 | without substitution rules, a comma-separated list of non-empty entries becomes the same entries joined with "; ", each digit-only one as "TCP <port>" |
| Rows.TagOnlyDigits | scformatter.py:219 | a fragment is changed by the port shorthand exactly when it is all digits, and then it becomes "TCP " followed by it |
| Rows.ServiceOfDelimitersOnly | scformatter.py:217-220 | without substitution rules, a service cell of delimiters only yields an empty service value |
| Rows.ServiceEmptyIffDelimiters | scformatter.py:217-220 | without substitution rules, the service value is empty exactly when the cell holds only newlines and commas |
| Rows.Action | scformatter.py:224-231 | "accept" exactly when only the add flag is set, "remove" exactly when only the remove flag is set, "" exactly when both or neither are set |
| Rows.Comment | scformatter.py:232-236 | usage and comment joined with a vertical bar when both are present; otherwise whichever is present, or "" |
| Rows.Reasons | scformatter.py:209-226 | the reasons are, in this order, "Miss" with the source header when the source is empty, with the destination header when the destination is empty, with the service header when the service is empty, and last "Have Both" with the add and remove headers exactly when both flags are set; nothing else |
| Rows.Values | scformatter.py:209-236 | the values a row is written with, field by field: a non-empty source and destination with each delimiter turned into "; ", a non-empty service through the service rule, and an empty one of the three kept as ""; the action of the add and remove flags, "accept" exactly for the add flag alone and "remove" exactly for the remove flag alone; the comment of usage and comment, joined with a vertical bar when both are present |
| Rows.Decide | scformatter.py:209-249 | a row is written exactly when source, destination and service are non-empty and the flags are not both set, and then with the transformed source and destination lists, the service value, the action and the comment; a row that is not written carries its reasons; a flag conflict always prevents writing and is always among the reasons; a row is dropped silently exactly when empty core fields plus a flag conflict count three |
| Rows.BlankRowSilent | scformatter.py:237-238 | a row with no source, destination or service and not both flags is dropped without a report |
| Rows.Normalize | scformatter.py:209-241 | in terms of the normalised cells under the resolved columns: written exactly when source, destination and service are non-blank and the add and remove cells are not both non-blank, with the transformed values; dropped silently exactly when blank core cells plus a flag conflict count three; otherwise the reasons are those of the row |
| Rows.DecideIntended | scformatter.py:237-241 | the corrected rule: silent exactly when source, destination and service are all empty; reported exactly when some but not all are empty, or none is and both flags are set; the reasons are the same as before |
| Rows.NormalizeIntended | scformatter.py:237-241 | in terms of the normalised cells: written under the same condition as the code; dropped silently exactly when the source, destination and service cells are all blank |
| Rows.IntendedWritesSameRows | scformatter.py:237-249 | the corrected rule writes the same rows with the same values |
| Rows.TwoMissesAndConflictDiffer | scformatter.py:237-238 | two empty core fields plus both flags: dropped silently as written, reported with three reasons under the corrected rule |
| Rows.BlankConflictDiffer | scformatter.py:237-241 | three empty core fields plus both flags: reported with four reasons as written, dropped silently under the corrected rule |
| Convert.DataRows | scformatter.py:208 | data rows are every row from sheet row 2 on, in order |
| Convert.Outcomes | scformatter.py:208-241 | one outcome per data row, in order: written exactly when the row's source, destination and service cells are non-blank and its add and remove cells are not both non-blank; dropped silently exactly when its source, destination and service cells are all blank (the corrected rule) |
| Convert.OutcomesAsWritten | scformatter.py:208-241 | one outcome per data row, in order: written under the same condition on the row's cells; dropped silently exactly when the row has three reasons, as the code decides |
| Convert.Collect | scformatter.py:237-249 | at most one output or report per data row; every written row is an accepted outcome; every report carries the number and reasons of a reported row |
| Convert.CollectAppend | scformatter.py:208-249 | the row loop over two consecutive runs of rows is the two loops concatenated; order and row numbers are kept |
| Convert.CollectOne | scformatter.py:237-249 | a single row is written, dropped, or reported under its own number, according to its outcome |
| Convert.CollectSameWritten | scformatter.py:243-249 | two runs of outcomes that accept the same rows with the same values write the same output rows |
| Convert.SameRowsWritten | scformatter.py:208-249 | correcting the skip rule leaves every sheet's written rows unchanged |
| Convert.WriteSheet | scformatter.py:207-249 | the loop with its output counter writes rows 1..n with no gap, row k holding the k-th accepted row, and reports the reported rows, with their reasons, under their sheet row numbers counted from 2; silently skipped rows appear nowhere |
| Convert.ConvertSheet | scformatter.py:185-249 | a sheet is skipped, naming exactly the missing required fields, unless every required field resolved; otherwise its written rows and reports are those of its data rows under the resolved columns, with the skip rule as the code writes it |
| Convert.ConvertSheetIntended | scformatter.py:237-241 | the same sheet conversion with the corrected skip rule |
| Convert.SheetWritesSameRows | scformatter.py:185-249 | the corrected rule skips the same sheets and writes the same rows as the code; only reports differ |
| Convert.AllSheetsAppend | scformatter.py:179-185 | the sheets of several workbooks are those of the first workbooks followed by those of the rest, so files are visited in order and each sheet once |
| Convert.AllSheetsOne | scformatter.py:185 | one workbook contributes exactly its sheets, in its order |
| Convert.ConvertExcels | scformatter.py:159-185 | the run aborts with exactly the configuration errors when there are any, whatever the sheets hold; otherwise it yields one result per input sheet, in order, each the code's conversion of that sheet |
| Convert.OutputSheets | scformatter.py:196-199 | there are as many output sheets as results exactly when no sheet is skipped, and then they are the sheets' written rows, in order |
| Convert.OutputSheetsAppend | scformatter.py:179-199 | the output sheets of consecutive results are those of the first results followed by those of the rest |
| Convert.OutputSheetsOne | scformatter.py:192-199 | a skipped sheet adds no output sheet; a written one adds exactly one, holding its written rows |
| Scenarios.CompleteRowAccepted | scformatter.py:209-249 | a complete row with a two-line source, two comma-separated ports and an add flag is written as "a; b", the destination, "TCP p; TCP q", "accept" and "" |
| Scenarios.ConflictRowDroppedSilently | scformatter.py:237-238 | a row with a port, both flags and no source or destination is dropped silently as written, and reported under the corrected rule |
| Scenarios.PortEightyBothFlags | scformatter.py:237-238 | the row `["", "", "80", "yes", "yes", "", ""]` is dropped silently as written and reported under the corrected rule |
| Scenarios.RepeatedHeaderLastWins | scformatter.py:191 | a header text found twice resolves to its later column |

## Left out

- Console output, colours, the log file and `TeeOutput`: they only report
  what the model computes. Report texts are kept as values (`Report`,
  `SheetSkipped.missing`).
- Reading the configuration file, finding input files, naming the output
  file, and opening or saving workbooks (`get_configs`, `get_files`,
  `generate_filename`, openpyxl). A workbook is given as its sheets of
  cells, and the run result stands for the saved workbook. Column widths
  are layout only.
- Sheet names, and the missing-field message that lists configured header
  texts (`required_configs`, lines 172 and 194). The model reports the
  missing keys as a set.
- Cells holding floats, booleans or dates. `safe_strip` turns them into
  `str(...)`, which is Python formatting the model does not reproduce.
  Cells are text, integer or empty.
- Unicode: whitespace and digits are the ASCII ones. `str.strip()` and
  `str.isnumeric()` also accept other Unicode characters.
- The exception paths:
  - a lookup of an unresolved optional field;
  - a row shorter than a resolved column (`RowFits`, `SheetFits`; a run
    with configuration errors aborts before any sheet is read, so
    `ConvertExcels` asks this only of runs without them);
  - a configuration without `service_replace`;
  - a damaged workbook;
  - a non-string cell whose `str()` raises inside `safe_strip`.

  These are preconditions of the model, not modelled outcomes.
- Rows.ServiceValue: there is no closed-form contract for a general
  service cell after arbitrary substitution rules. It is characterised by
  `ServiceOfList`, `TagOnlyDigits`, `ServiceOfDelimitersOnly`,
  `ServiceEmptyIffDelimiters`, `NonEmptyAppend`, `TagAll` and the
  `str.replace` lemmas (`ReplaceAll`, `ReplaceLeftmost`, `InsertEverywhereAt`,
  `ApplyReplacementsAppend`).
- Convert.ConvertSheet, Convert.ConvertSheetIntended, Convert.ConvertExcels:
  the header entries of a configuration are taken to come from a JSON
  object (`WellFormed`: every header key once, and none of them is
  `service_replace`), so a model configuration with a repeated header key
  is outside them. The `service_replace` patterns are not required to be
  distinct: the model applies them in list order.
- Rows.ReadFields is the seven `safe_strip(row[cfgs[...]])` reads
  (lines 210-234) and carries no contract of its own. Its content is stated
  in the contracts of `Rows.Normalize` and `Rows.NormalizeIntended`.

## Findings

| source | as written | input that shows it | evidently intended | confidence | as-written member | corrected member |
|---|---|---|---|---|---|---|
| scformatter.py:237-241 | a row is dropped silently when it has exactly three reasons | a row with empty source and destination, service "80", and "yes" under both add and remove: two "Miss" reasons plus "Have Both" make three, so the row disappears unreported; and a row with all three core fields empty and both flags set has four reasons and is reported | the comment `# Skip empty line` on line 237 describes a silent drop exactly for rows whose source, destination and service are all empty; every other failing row is reported by the branch on line 239 | not executed | Rows.Decide (Rows.TwoMissesAndConflictDiffer, Rows.BlankConflictDiffer, Scenarios.PortEightyBothFlags), used by Convert.ConvertSheet | Rows.DecideIntended (Rows.IntendedWritesSameRows, Convert.SameRowsWritten, Convert.SheetWritesSameRows), used by Convert.ConvertSheetIntended |

=== FILE: cells.dfy ===
/** Spreadsheet cell values and the text normalisation every cell goes
    through before it is compared or copied (`safe_strip`). */
module Cells {
  import opened Text

  /** A cell as the workbook reader hands it over: text, an integer, or
      nothing at all. */
  datatype Cell = Text(text: string) | Int(value: int) | Empty

  /** `safe_strip`: text is stripped of surrounding whitespace, leaving the
      slice of the text between its leading and trailing whitespace; an
      empty cell and the integer 0 (both falsy) become ""; any other
      integer becomes its canonical decimal numeral, which reads back as it. */
  function SafeStrip(c: Cell): (r: string)
    ensures r == [] || (!IsSpace(r[0]) && !IsSpace(r[|r| - 1]))
    ensures r == [] <==> (c.Empty? || c == Int(0) || (c.Text? && AllSpace(c.text)))
    ensures c.Text? ==> exists i :: PaddedAt(c.text, r, i)
    ensures c.Int? && c.value != 0 ==>
              (IsDigits(r) || (|r| > 1 && r[0] == '-' && IsDigits(r[1..]))) && IntValue(r) == c.value
    ensures c.Int? && c.value > 0 ==> r[0] != '0'
    ensures c.Int? && c.value < 0 ==> r[0] == '-' && r[1] != '0'
  {
    match c
    case Text(s) =>
      StripEmptyIffAllSpace(s);
      Strip(s)
    case Int(n) =>
      IntDecimalRoundTrip(n);
      if n != 0 then IntToDecimal(n) else ""
    case Empty => ""
  }

  /** Normalising a cell twice is the same as normalising it once. */
  lemma SafeStripIdempotent(c: Cell)
    ensures SafeStrip(Text(SafeStrip(c))) == SafeStrip(c)
  {
    match c
    case Text(s) => StripIdempotent(s);
    case Int(n) => StripUnpadded(SafeStrip(c));
    case Empty =>
  }
}

=== FILE: configuration.dfy ===
/** The run configuration: which header text stands for which logical
    field, the service substitution rules, and the checks made on it before
    any workbook is touched. */
module Configuration {

  /** The logical fields every run and every sheet must define. */
  const Required: set<string> := {"SRC", "DST", "SRV", "ADD", "RM"}

  /** Every logical field a data row reads. */
  const AllFields: set<string> := {"SRC", "DST", "SRV", "ADD", "RM", "USG", "CMT"}

  /** The one configuration entry that is not a header text. */
  const ServiceReplaceKey: string := "service_replace"

  const ConfigError: string := "ERROR: configs is not correct. SRC, DST, SRV are required."
  const NoInputsError: string := "ERROR: No Excel files found in the given path."
  const NoOutputError: string := "ERROR: output file is Empty"

  /** A loaded configuration object. `headers` holds every entry other than
      `service_replace`, as (key, header text) in the object's order;
      `serviceReplace` holds the (pattern, replacement) pairs of
      `service_replace` in their order. */
  datatype Config = Config(headers: seq<(string, string)>, serviceReplace: seq<(string, string)>)

  function Keys(headers: seq<(string, string)>): (r: set<string>)
    ensures forall k :: k in r <==> exists i :: 0 <= i < |headers| && headers[i].0 == k
  {
    set i | 0 <= i < |headers| :: headers[i].0
  }

  /** The key of entry `i`. */
  function KeyAt(headers: seq<(string, string)>, i: int): string
    requires 0 <= i < |headers|
  {
    headers[i].0
  }

  /** The header entries as a JSON object can hold them: every header key
      once, and `service_replace` kept apart from them. The substitution
      rules are not constrained here. */
  predicate WellFormed(cfg: Config) {
    && (forall i, j {:trigger KeyAt(cfg.headers, i), KeyAt(cfg.headers, j)} ::
          0 <= i < j < |cfg.headers| ==> KeyAt(cfg.headers, i) != KeyAt(cfg.headers, j))
    && ServiceReplaceKey !in Keys(cfg.headers)
  }

  /** `configs[key]`: the header text configured for `key`. */
  function HeaderOf(headers: seq<(string, string)>, key: string): (h: string)
    requires key in Keys(headers)
    ensures exists i :: 0 <= i < |headers| && headers[i] == (key, h)
  {
    if headers[|headers| - 1].0 == key then headers[|headers| - 1].1
    else
      assert key in Keys(headers[..|headers| - 1]) by {
        var i :| 0 <= i < |headers| && headers[i].0 == key;
        assert headers[..|headers| - 1][i].0 == key;
      }
      HeaderOf(headers[..|headers| - 1], key)
  }

  /** The checks made before any file is opened: all required keys
      configured, at least one input, and a non-empty output name. Each
      failed check contributes its message, in that order. */
  function ConfigErrors(cfg: Config, inputCount: nat, output: string): (errs: seq<string>)
    ensures errs == [] <==> Required <= Keys(cfg.headers) && inputCount > 0 && output != ""
    ensures ConfigError in errs <==> !(Required <= Keys(cfg.headers))
    ensures NoInputsError in errs <==> inputCount == 0
    ensures NoOutputError in errs <==> output == ""
    ensures |errs| == (if Required <= Keys(cfg.headers) then 0 else 1)
                      + (if inputCount > 0 then 0 else 1)
                      + (if output != "" then 0 else 1)
    ensures ConfigError in errs ==> errs[0] == ConfigError
    ensures NoOutputError in errs ==> errs[|errs| - 1] == NoOutputError
  {
    (if Required <= Keys(cfg.headers) then [] else [ConfigError])
    + (if inputCount > 0 then [] else [NoInputsError])
    + (if output != "" then [] else [NoOutputError])
  }

  /** Entry `i` is the last one whose header text is `h`. */
  predicate LastWithHeader(headers: seq<(string, string)>, i: int, h: string) {
    0 <= i < |headers| && headers[i].1 == h
    && forall j :: i < j < |headers| ==> headers[j].1 != h
  }

  /** One more entry overwrites the index at its header text. */
  lemma ReverseIndexExtend(headers: seq<(string, string)>, rev: map<string, string>)
    requires |headers| > 0
    requires forall h :: h in rev <==> exists i :: 0 <= i < |headers| - 1 && headers[i].1 == h
    requires forall h :: h in rev ==>
               exists i :: LastWithHeader(headers[..|headers| - 1], i, h) && headers[i].0 == rev[h]
    ensures var r := rev[headers[|headers| - 1].1 := headers[|headers| - 1].0];
            && (forall h :: h in r <==> exists i :: 0 <= i < |headers| && headers[i].1 == h)
            && (forall h :: h in r ==> exists i :: LastWithHeader(headers, i, h) && headers[i].0 == r[h])
  {
    var n := |headers| - 1;
    var prefix := headers[..n];
    var r := rev[headers[n].1 := headers[n].0];
    forall h | h in r
      ensures exists i :: LastWithHeader(headers, i, h) && headers[i].0 == r[h]
    {
      if h == headers[n].1 {
        assert LastWithHeader(headers, n, h);
      } else {
        var i :| LastWithHeader(prefix, i, h) && headers[i].0 == rev[h];
        assert LastWithHeader(headers, i, h);
      }
    }
  }

  /** `reverse_configs`: header text -> key, built in the configuration's
      order so that when two keys share a header text the later one wins. */
  function ReverseIndex(headers: seq<(string, string)>): (rev: map<string, string>)
    ensures forall h :: h in rev <==> exists i :: 0 <= i < |headers| && headers[i].1 == h
    ensures forall h :: h in rev ==>
              exists i :: LastWithHeader(headers, i, h) && headers[i].0 == rev[h]
  {
    if |headers| == 0 then map[]
    else
      var n := |headers| - 1;
      var prefix := headers[..n];
      var rev := ReverseIndex(prefix);
      ReverseIndexExtend(headers, rev);
      rev[headers[n].1 := headers[n].0]
  }

  /** With distinct keys the index inverts the configuration: the key
      found for a header text is configured with exactly that text, and
      `service_replace` is never a target of the index. */
  lemma ReverseIndexInverts(cfg: Config)
    requires WellFormed(cfg)
    ensures forall h :: h in ReverseIndex(cfg.headers) ==>
              var k := ReverseIndex(cfg.headers)[h];
              k in Keys(cfg.headers) && HeaderOf(cfg.headers, k) == h && k != ServiceReplaceKey
  {
    var rev := ReverseIndex(cfg.headers);
    forall h | h in rev
      ensures rev[h] in Keys(cfg.headers) && HeaderOf(cfg.headers, rev[h]) == h
    {
      var i :| LastWithHeader(cfg.headers, i, h) && cfg.headers[i].0 == rev[h];
      var j :| 0 <= j < |cfg.headers| && cfg.headers[j] == (rev[h], HeaderOf(cfg.headers, rev[h]));
      assert KeyAt(cfg.headers, i) == KeyAt(cfg.headers, j);
      assert i == j;
    }
  }
}

=== FILE: convert.dfy ===
/** The conversion of a run: the configuration check, then every sheet of
    every input workbook in order, each either skipped for missing headers
    or turned into one output sheet holding its accepted rows. */
module Convert {
  import opened Cells
  import opened Configuration
  import opened Headers
  import opened Rows

  /** A reported row: its sheet row number and its reasons. */
  datatype Report = Report(rowNumber: nat, reasons: seq<string>)

  /** The rows read as data: every row from sheet row 2 on, so the second
      header row is read as data too. */
  function DataRows(sheet: Sheet): (rows: seq<seq<Cell>>)
    ensures |rows| == (if |sheet| == 0 then 0 else |sheet| - 1)
    ensures forall i :: 0 <= i < |rows| ==> rows[i] == sheet[i + 1]
  {
    if |sheet| == 0 then [] else sheet[1..]
  }

  predicate RowsFit(rows: seq<seq<Cell>>, cols: map<string, nat>) {
    forall i :: 0 <= i < |rows| ==> RowFits(rows[i], cols)
  }

  /** The outcome of every data row, in order, under the skip rule as
      intended: a row is dropped silently exactly when its source,
      destination and service are all empty. */
  function Outcomes(rows: seq<seq<Cell>>, cols: map<string, nat>, cfg: Config): (os: seq<Outcome>)
    requires RowsFit(rows, cols) && Required <= Keys(cfg.headers)
    ensures |os| == |rows|
    ensures forall i :: 0 <= i < |rows| ==> os[i] == NormalizeIntended(rows[i], cols, cfg)
    ensures forall i :: 0 <= i < |rows| ==> (os[i].Accepted? <==> Writable(rows[i], cols))
    ensures forall i :: 0 <= i < |rows| ==> (os[i].SilentSkip? <==> BlankLine(rows[i], cols))
  {
    seq(|rows|, i requires 0 <= i < |rows| => NormalizeIntended(rows[i], cols, cfg))
  }

  /** The outcome of every data row under the rule as the code writes it,
      which drops a row silently when it has exactly three reasons. */
  function OutcomesAsWritten(rows: seq<seq<Cell>>, cols: map<string, nat>, cfg: Config): (os: seq<Outcome>)
    requires RowsFit(rows, cols) && Required <= Keys(cfg.headers)
    ensures |os| == |rows|
    ensures forall i :: 0 <= i < |rows| ==> os[i] == Normalize(rows[i], cols, cfg)
    ensures forall i :: 0 <= i < |rows| ==> (os[i].Accepted? <==> Writable(rows[i], cols))
    ensures forall i :: 0 <= i < |rows| ==>
              (os[i].SilentSkip? <==> |Reasons(ReadFields(rows[i], cols), cfg)| == 3)
  {
    seq(|rows|, i requires 0 <= i < |rows| => Normalize(rows[i], cols, cfg))
  }

  /** Two runs of outcomes that accept the same rows with the same values
      write the same output rows, whatever they do with the others. */
  lemma {:induction false} CollectSameWritten(a: seq<Outcome>, b: seq<Outcome>, first: nat)
    requires |a| == |b|
    requires forall i :: 0 <= i < |a| ==> (a[i].Accepted? <==> b[i].Accepted?)
    requires forall i :: 0 <= i < |a| && a[i].Accepted? ==> a[i].row == b[i].row
    ensures Collect(a, first).0 == Collect(b, first).0
    decreases |a|
  {
    if |a| > 0 {
      var n := |a| - 1;
      CollectSameWritten(a[..n], b[..n], first);
    }
  }

  /** Correcting the skip rule changes only which dropped rows are
      reported: the rows written for a sheet are the same. */
  lemma SameRowsWritten(rows: seq<seq<Cell>>, cols: map<string, nat>, cfg: Config)
    requires RowsFit(rows, cols) && Required <= Keys(cfg.headers)
    ensures Collect(OutcomesAsWritten(rows, cols, cfg), 2).0 == Collect(Outcomes(rows, cols, cfg), 2).0
  {
    var a, b := OutcomesAsWritten(rows, cols, cfg), Outcomes(rows, cols, cfg);
    forall i | 0 <= i < |rows|
      ensures (a[i].Accepted? <==> b[i].Accepted?) && (a[i].Accepted? ==> a[i].row == b[i].row)
    {
      IntendedWritesSameRows(ReadFields(rows[i], cols), cfg);
    }
    CollectSameWritten(a, b, 2);
  }

  /** The rows written and the rows reported, for data rows numbered from
      `first` whose outcomes are `os`. Only accepted rows are written, each
      right after the one before; a silently skipped row leaves no trace. */
  function Collect(os: seq<Outcome>, first: nat): (res: (seq<CanonicalRow>, seq<Report>))
    ensures |res.0| + |res.1| <= |os|
    ensures forall k :: 0 <= k < |res.0| ==> Accepted(res.0[k]) in os
    ensures forall k :: 0 <= k < |res.1| ==>
              var i := res.1[k].rowNumber - first;
              first <= res.1[k].rowNumber && 0 <= i < |os| && os[i] == Reported(res.1[k].reasons)
    decreases |os|
  {
    if |os| == 0 then ([], [])
    else
      var n := |os| - 1;
      var prev := Collect(os[..n], first);
      assert forall i :: 0 <= i < n ==> os[..n][i] == os[i];
      var o := os[n];
      if o.Accepted? then (prev.0 + [o.row], prev.1)
      else if o.Reported? then (prev.0, prev.1 + [Report(first + n, o.reasons)])
      else prev
  }

  /** Collecting two runs of rows one after the other is collecting their
      concatenation: outputs and reports keep the input order, and the
      second run's rows keep their own numbers. */
  lemma {:induction false} CollectAppend(a: seq<Outcome>, b: seq<Outcome>, first: nat)
    ensures var ra := Collect(a, first);
            var rb := Collect(b, first + |a|);
            Collect(a + b, first) == (ra.0 + rb.0, ra.1 + rb.1)
    decreases |b|
  {
    if |b| > 0 {
      var n := |b| - 1;
      CollectAppend(a, b[..n], first);
      assert (a + b)[..|a + b| - 1] == a + b[..n];
      assert (a + b)[|a + b| - 1] == b[n];
      var ra := Collect(a, first);
      var rp := Collect(b[..n], first + |a|);
      var o := b[n];
      if o.Accepted? {
        assert ra.0 + rp.0 + [o.row] == ra.0 + (rp.0 + [o.row]);
      } else if o.Reported? {
        var rep := Report(first + |a| + n, o.reasons);
        assert ra.1 + rp.1 + [rep] == ra.1 + (rp.1 + [rep]);
      }
    } else {
      assert a + b == a;
      var ra := Collect(a, first);
      assert ra.0 + [] == ra.0 && ra.1 + [] == ra.1;
    }
  }

  /** One row alone is written, reported under its number, or dropped,
      according to its outcome. */
  lemma CollectOne(o: Outcome, first: nat)
    ensures var res := Collect([o], first);
            && (o.Accepted? ==> res == ([o.row], []))
            && (o.SilentSkip? ==> res == ([], []))
            && (o.Reported? ==> res == ([], [Report(first, o.reasons)]))
  {
    assert [o][..0] == [];
    assert [] + [o] == [o];
    if o.Accepted? {
      assert [] + [o.row] == [o.row];
    } else if o.Reported? {
      assert [] + [Report(first, o.reasons)] == [Report(first, o.reasons)];
    }
  }

  /** The row loop of a kept sheet, as the code writes it, given each
      data row's outcome: a counter that is advanced only for an accepted
      row, whose values go to that output row. The output rows are numbered
      1 to n with no gap, and row k holds the k-th written row of `Collect`. */
  method WriteSheet(os: seq<Outcome>) returns (out: map<nat, CanonicalRow>, count: nat, reports: seq<Report>)
    ensures count == |Collect(os, 2).0|
    ensures forall k :: k in out <==> 1 <= k <= count
    ensures forall k :: 1 <= k <= count ==> out[k] == Collect(os, 2).0[k - 1]
    ensures reports == Collect(os, 2).1
  {
    out, count, reports := map[], 0, [];
    var i := 0;
    while i < |os|
      invariant 0 <= i <= |os|
      invariant count == |Collect(os[..i], 2).0|
      invariant forall k :: k in out <==> 1 <= k <= count
      invariant forall k :: 1 <= k <= count ==> out[k] == Collect(os[..i], 2).0[k - 1]
      invariant reports == Collect(os[..i], 2).1
    {
      assert os[..i + 1][..i] == os[..i];
      assert os[..i + 1][i] == os[i];
      var outcome := os[i];
      if outcome.Accepted? {
        count := count + 1;
        out := out[count := outcome.row];
      } else if outcome.Reported? {
        reports := reports + [Report(i + 2, outcome.reasons)];
      }
      i := i + 1;
    }
    assert os[..i] == os;
  }

  /** What became of one input sheet. */
  datatype SheetResult =
    | SheetSkipped(missing: set<string>)
    | SheetWritten(columns: map<string, nat>, rows: seq<CanonicalRow>, reports: seq<Report>)

  /** Every data row of a sheet whose required fields resolve can be read:
      the optional fields resolve as well and every row is long enough. */
  predicate SheetFits(sheet: Sheet, cfg: Config) {
    var cols := Resolve(sheet, cfg);
    Required <= cols.Keys ==> RowsFit(DataRows(sheet), cols)
  }

  /** One sheet, as the code converts it: resolve the headers; skip the
      sheet, naming the missing fields, unless every required field
      resolved; otherwise convert its data rows, numbered from 2, with the
      skip rule as written. */
  function ConvertSheet(sheet: Sheet, cfg: Config): (res: SheetResult)
    requires SheetFits(sheet, cfg) && Required <= Keys(cfg.headers)
    requires WellFormed(cfg)
    ensures res.SheetSkipped? <==> !(Required <= Resolve(sheet, cfg).Keys)
    ensures res.SheetSkipped? ==> res.missing == Required - Resolve(sheet, cfg).Keys
    ensures res.SheetWritten? ==>
              res.columns == Resolve(sheet, cfg)
              && (res.rows, res.reports) == Collect(OutcomesAsWritten(DataRows(sheet), res.columns, cfg), 2)
  {
    var cols := Resolve(sheet, cfg);
    match CheckColumns(cols)
    case MissingKeys(missing) => SheetSkipped(missing)
    case Resolved(_) =>
      assert RowsFit(DataRows(sheet), cols);
      var converted := Collect(OutcomesAsWritten(DataRows(sheet), cols, cfg), 2);
      SheetWritten(cols, converted.0, converted.1)
  }

  /** One sheet under the corrected skip rule: the same, except that a row
      is dropped silently exactly when its source, destination and service
      are all empty. */
  function ConvertSheetIntended(sheet: Sheet, cfg: Config): (res: SheetResult)
    requires SheetFits(sheet, cfg) && Required <= Keys(cfg.headers)
    requires WellFormed(cfg)
    ensures res.SheetSkipped? <==> !(Required <= Resolve(sheet, cfg).Keys)
    ensures res.SheetSkipped? ==> res.missing == Required - Resolve(sheet, cfg).Keys
    ensures res.SheetWritten? ==>
              res.columns == Resolve(sheet, cfg)
              && (res.rows, res.reports) == Collect(Outcomes(DataRows(sheet), res.columns, cfg), 2)
  {
    var cols := Resolve(sheet, cfg);
    match CheckColumns(cols)
    case MissingKeys(missing) => SheetSkipped(missing)
    case Resolved(_) =>
      assert RowsFit(DataRows(sheet), cols);
      var converted := Collect(Outcomes(DataRows(sheet), cols, cfg), 2);
      SheetWritten(cols, converted.0, converted.1)
  }

  /** The corrected rule skips the same sheets and writes the same rows;
      only the reports can differ. */
  lemma SheetWritesSameRows(sheet: Sheet, cfg: Config)
    requires SheetFits(sheet, cfg) && Required <= Keys(cfg.headers)
    requires WellFormed(cfg)
    ensures ConvertSheet(sheet, cfg).SheetSkipped? <==> ConvertSheetIntended(sheet, cfg).SheetSkipped?
    ensures ConvertSheet(sheet, cfg).SheetWritten? ==>
              ConvertSheet(sheet, cfg).rows == ConvertSheetIntended(sheet, cfg).rows
  {
    var cols := Resolve(sheet, cfg);
    if Required <= cols.Keys {
      SameRowsWritten(DataRows(sheet), cols, cfg);
    }
  }

  /** An input workbook: its sheets in order. */
  type Workbook = seq<Sheet>

  /** The sheets of all workbooks, file after file. */
  function AllSheets(inputs: seq<Workbook>): (sheets: seq<Sheet>)
    ensures forall w, s :: 0 <= w < |inputs| && 0 <= s < |inputs[w]| ==> inputs[w][s] in sheets
  {
    if |inputs| == 0 then [] else inputs[0] + AllSheets(inputs[1..])
  }

  /** The sheets of several workbooks in a row are those of the first ones
      followed by those of the rest: files in order, each sheet once. */
  lemma {:induction false} AllSheetsAppend(a: seq<Workbook>, b: seq<Workbook>)
    ensures AllSheets(a + b) == AllSheets(a) + AllSheets(b)
    decreases |a|
  {
    if |a| > 0 {
      assert (a + b)[0] == a[0] && (a + b)[1..] == a[1..] + b;
      AllSheetsAppend(a[1..], b);
    } else {
      assert a + b == b;
    }
  }

  /** One workbook alone contributes its sheets, in its own order. */
  lemma AllSheetsOne(w: Workbook)
    ensures AllSheets([w]) == w
  {
    assert [w][1..] == [];
    assert w + [] == w;
  }

  /** The outcome of a run. */
  datatype RunResult = Aborted(errors: seq<string>) | Finished(sheets: seq<SheetResult>)

  /** `convert_excels`: abort with every configuration error if there is
      one; otherwise one result per input sheet, in order. */
  function ConvertExcels(cfg: Config, inputs: seq<Workbook>, output: string): (res: RunResult)
    requires WellFormed(cfg)
    requires ConfigErrors(cfg, |inputs|, output) == [] ==>
               forall i :: 0 <= i < |AllSheets(inputs)| ==> SheetFits(AllSheets(inputs)[i], cfg)
    ensures res.Aborted? <==> !(Required <= Keys(cfg.headers)) || |inputs| == 0 || output == ""
    ensures res.Aborted? ==> res.errors == ConfigErrors(cfg, |inputs|, output)
    ensures res.Finished? ==>
              |res.sheets| == |AllSheets(inputs)|
              && forall i :: 0 <= i < |res.sheets| ==> res.sheets[i] == ConvertSheet(AllSheets(inputs)[i], cfg)
  {
    var errors := ConfigErrors(cfg, |inputs|, output);
    if errors != [] then Aborted(errors)
    else
      var sheets := AllSheets(inputs);
      Finished(seq(|sheets|, i requires 0 <= i < |sheets| => ConvertSheet(sheets[i], cfg)))
  }

  /** The sheets of the output workbook: one per written input sheet, in
      order, holding that sheet's written rows. */
  function OutputSheets(results: seq<SheetResult>): (out: seq<seq<CanonicalRow>>)
    ensures |out| <= |results|
    ensures |out| == |results| <==> forall i :: 0 <= i < |results| ==> results[i].SheetWritten?
    ensures (forall i :: 0 <= i < |results| ==> results[i].SheetWritten?) ==>
              |out| == |results| && forall i :: 0 <= i < |results| ==> out[i] == results[i].rows
  {
    if |results| == 0 then []
    else
      (match results[0]
       case SheetSkipped(_) => []
       case SheetWritten(_, rows, _) => [rows])
      + OutputSheets(results[1..])
  }

  /** The output sheets of consecutive results are those of the first ones
      followed by those of the rest. */
  lemma {:induction false} OutputSheetsAppend(a: seq<SheetResult>, b: seq<SheetResult>)
    ensures OutputSheets(a + b) == OutputSheets(a) + OutputSheets(b)
    decreases |a|
  {
    if |a| > 0 {
      assert (a + b)[0] == a[0] && (a + b)[1..] == a[1..] + b;
      OutputSheetsAppend(a[1..], b);
    } else {
      assert a + b == b;
    }
  }

  /** A skipped sheet adds no output sheet; a written one adds exactly one,
      holding its written rows. */
  lemma OutputSheetsOne(r: SheetResult)
    ensures OutputSheets([r]) == (if r.SheetWritten? then [r.rows] else [])
  {
    assert [r][1..] == [];
  }
}

=== FILE: headers.dfy ===
/** Header resolution: the first two rows of a sheet are scanned for the
    configured header texts, and every match records the column index of
    its logical field. */
module Headers {
  import opened Cells
  import opened Configuration

  /** A sheet as the reader hands it over: rows of cells, top to bottom. */
  type Sheet = seq<seq<Cell>>

  /** The rows read for header resolution: rows 1 and 2, as far as they exist. */
  function HeaderRows(sheet: Sheet): (rows: seq<seq<Cell>>)
    ensures |rows| == (if |sheet| < 2 then |sheet| else 2)
    ensures forall r :: 0 <= r < |rows| ==> rows[r] == sheet[r]
  {
    if |sheet| < 2 then sheet else sheet[..2]
  }

  /** One row's cells, normalised, each paired with its column index. */
  function Enumerate(row: seq<Cell>): (cells: seq<(nat, string)>)
    ensures |cells| == |row|
    ensures forall c :: 0 <= c < |row| ==> cells[c] == (c, SafeStrip(row[c]))
  {
    seq(|row|, c requires 0 <= c < |row| => (c, SafeStrip(row[c])))
  }

  /** The header cells in scan order: row 1 left to right, then row 2. */
  function ScanOrder(rows: seq<seq<Cell>>): seq<(nat, string)> {
    if |rows| == 0 then [] else Enumerate(rows[0]) + ScanOrder(rows[1..])
  }

  /** Scan position `p` holds a header text that the index maps to `key`. */
  predicate MatchAt(cells: seq<(nat, string)>, rev: map<string, string>, p: int, key: string) {
    0 <= p < |cells| && cells[p].1 in rev && rev[cells[p].1] == key
  }

  /** Position `p` is the last scan position that matches `key`. */
  predicate LastMatchAt(cells: seq<(nat, string)>, rev: map<string, string>, p: int, key: string) {
    MatchAt(cells, rev, p, key) && forall q :: p < q < |cells| ==> !MatchAt(cells, rev, q, key)
  }

  lemma ScanExtend(prefix: seq<(nat, string)>, last: (nat, string), rev: map<string, string>,
                    cols: map<string, nat>)
    requires forall k :: k in cols <==> exists p :: MatchAt(prefix, rev, p, k)
    requires forall k :: k in cols ==> exists p :: LastMatchAt(prefix, rev, p, k) && prefix[p].0 == cols[k]
    ensures var cells := prefix + [last];
            var r := if last.1 in rev then cols[rev[last.1] := last.0] else cols;
            && (forall k :: k in r <==> exists p :: MatchAt(cells, rev, p, k))
            && (forall k :: k in r ==> exists p :: LastMatchAt(cells, rev, p, k) && cells[p].0 == r[k])
  {
    var cells := prefix + [last];
    var n := |prefix|;
    var r := if last.1 in rev then cols[rev[last.1] := last.0] else cols;
    forall p | 0 <= p < n
      ensures cells[p] == prefix[p]
    {
    }
    forall k
      ensures k in r <==> exists p :: MatchAt(cells, rev, p, k)
    {
      if exists p :: MatchAt(cells, rev, p, k) {
        var p :| MatchAt(cells, rev, p, k);
        if p < n { assert MatchAt(prefix, rev, p, k); }
      }
      if k in cols {
        var p :| MatchAt(prefix, rev, p, k);
        assert MatchAt(cells, rev, p, k);
      }
      if last.1 in rev && k == rev[last.1] {
        assert MatchAt(cells, rev, n, k);
      }
    }
    forall k | k in r
      ensures exists p :: LastMatchAt(cells, rev, p, k) && cells[p].0 == r[k]
    {
      if MatchAt(cells, rev, n, k) {
        assert LastMatchAt(cells, rev, n, k);
      } else {
        var p :| LastMatchAt(prefix, rev, p, k) && prefix[p].0 == cols[k];
        forall q | p < q < |cells|
          ensures !MatchAt(cells, rev, q, k)
        {
          if q < n { assert !MatchAt(prefix, rev, q, k); }
        }
        assert LastMatchAt(cells, rev, p, k);
      }
    }
  }

  /** The dictionary comprehension over the scanned cells: every match
      writes its column index under its key, so a later match overwrites
      an earlier one and the last match wins. */
  function Scan(cells: seq<(nat, string)>, rev: map<string, string>): (cols: map<string, nat>)
    ensures forall k :: k in cols <==> exists p :: MatchAt(cells, rev, p, k)
    ensures forall k :: k in cols ==> exists p :: LastMatchAt(cells, rev, p, k) && cells[p].0 == cols[k]
  {
    if |cells| == 0 then map[]
    else
      var n := |cells| - 1;
      var cols := Scan(cells[..n], rev);
      ScanExtend(cells[..n], cells[n], rev, cols);
      assert cells[..n] + [cells[n]] == cells;
      if cells[n].1 in rev then cols[rev[cells[n].1] := cells[n].0] else cols
  }

  /** The resolved columns of a sheet: logical field -> column index. */
  function Resolve(sheet: Sheet, cfg: Config): map<string, nat> {
    Scan(ScanOrder(HeaderRows(sheet)), ReverseIndex(cfg.headers))
  }

  /** Scan position `p` is the cell of row `r`, column `c`. */
  lemma {:induction false} ScanOrderAt(rows: seq<seq<Cell>>, p: int)
    requires 0 <= p < |ScanOrder(rows)|
    ensures exists r, c :: 0 <= r < |rows| && 0 <= c < |rows[r]|
                           && ScanOrder(rows)[p] == (c, SafeStrip(rows[r][c]))
    decreases |rows|
  {
    var e := Enumerate(rows[0]);
    if p < |e| {
      assert ScanOrder(rows)[p] == e[p];
      assert ScanOrder(rows)[p] == (p, SafeStrip(rows[0][p]));
    } else {
      ScanOrderAt(rows[1..], p - |e|);
      var r, c :| 0 <= r < |rows[1..]| && 0 <= c < |rows[1..][r]|
                  && ScanOrder(rows[1..])[p - |e|] == (c, SafeStrip(rows[1..][r][c]));
      assert ScanOrder(rows)[p] == (c, SafeStrip(rows[r + 1][c]));
    }
  }

  /** Every header cell has a place in the scan order. */
  lemma {:induction false} ScanOrderHas(rows: seq<seq<Cell>>, r: int, c: int)
    requires 0 <= r < |rows| && 0 <= c < |rows[r]|
    ensures (c, SafeStrip(rows[r][c])) in ScanOrder(rows)
    decreases |rows|
  {
    var e := Enumerate(rows[0]);
    var tail := ScanOrder(rows[1..]);
    assert ScanOrder(rows) == e + tail;
    if r == 0 {
      assert ScanOrder(rows)[c] == e[c];
    } else {
      assert rows[1..][r - 1] == rows[r];
      ScanOrderHas(rows[1..], r - 1, c);
    }
  }

  /** A field resolves to column `c` only if row 1 or row 2 holds, at `c`,
      a cell whose normalised text is the header configured for that field. */
  lemma ResolvedColumnsMatchHeaders(sheet: Sheet, cfg: Config)
    requires WellFormed(cfg)
    ensures var cols := Resolve(sheet, cfg);
            forall k :: k in cols ==>
              && k in Keys(cfg.headers)
              && exists r :: 0 <= r < |sheet| && r < 2 && cols[k] < |sheet[r]|
                             && SafeStrip(sheet[r][cols[k]]) == HeaderOf(cfg.headers, k)
  {
    var cols := Resolve(sheet, cfg);
    forall k | k in cols
      ensures k in Keys(cfg.headers)
      ensures exists r :: 0 <= r < |sheet| && r < 2 && cols[k] < |sheet[r]|
                          && SafeStrip(sheet[r][cols[k]]) == HeaderOf(cfg.headers, k)
    {
      ResolvedColumnMatches(sheet, cfg, k);
    }
  }

  lemma ResolvedColumnMatches(sheet: Sheet, cfg: Config, k: string)
    requires WellFormed(cfg) && k in Resolve(sheet, cfg)
    ensures k in Keys(cfg.headers)
    ensures exists r :: 0 <= r < |sheet| && r < 2 && Resolve(sheet, cfg)[k] < |sheet[r]|
                        && SafeStrip(sheet[r][Resolve(sheet, cfg)[k]]) == HeaderOf(cfg.headers, k)
  {
    var rows := HeaderRows(sheet);
    var cells := ScanOrder(rows);
    var rev := ReverseIndex(cfg.headers);
    var cols := Resolve(sheet, cfg);
    ReverseIndexInverts(cfg);
    var p :| LastMatchAt(cells, rev, p, k) && cells[p].0 == cols[k];
    ScanOrderAt(rows, p);
    var r, c :| 0 <= r < |rows| && 0 <= c < |rows[r]| && cells[p] == (c, SafeStrip(rows[r][c]));
    var h := cells[p].1;
    assert h in rev && rev[h] == k;
    assert k in Keys(cfg.headers) && HeaderOf(cfg.headers, k) == h;
    assert rows[r] == sheet[r] && c == cols[k];
    assert 0 <= r < |sheet| && r < 2 && cols[k] < |sheet[r]| && SafeStrip(sheet[r][cols[k]]) == h;
  }

  /** Every field that some header cell's text is indexed under is resolved. */
  lemma HeaderCellsResolve(sheet: Sheet, cfg: Config)
    ensures var cols := Resolve(sheet, cfg);
            var rev := ReverseIndex(cfg.headers);
            forall r, c :: 0 <= r < |sheet| && r < 2 && 0 <= c < |sheet[r]| && SafeStrip(sheet[r][c]) in rev
              ==> rev[SafeStrip(sheet[r][c])] in cols
  {
    var rows := HeaderRows(sheet);
    var cells := ScanOrder(rows);
    var rev := ReverseIndex(cfg.headers);
    var cols := Resolve(sheet, cfg);
    forall r, c | 0 <= r < |sheet| && r < 2 && 0 <= c < |sheet[r]| && SafeStrip(sheet[r][c]) in rev
      ensures rev[SafeStrip(sheet[r][c])] in cols
    {
      assert rows[r] == sheet[r];
      ScanOrderHas(rows, r, c);
      var p :| 0 <= p < |cells| && cells[p] == (c, SafeStrip(rows[r][c]));
      assert MatchAt(cells, rev, p, rev[SafeStrip(sheet[r][c])]);
    }
  }

  /** Where cell (r, c) of the header rows sits in the scan order. */
  function ScanPos(rows: seq<seq<Cell>>, r: nat, c: nat): nat
    requires r < |rows|
  {
    if r == 0 then c else |rows[0]| + c
  }

  /** The scanned cells of the header rows: row 1, then row 2 when there is one. */
  lemma HeaderScanRows(sheet: Sheet)
    ensures var rows := HeaderRows(sheet);
            ScanOrder(rows) == if |rows| == 0 then []
                               else if |rows| == 1 then Enumerate(rows[0])
                               else Enumerate(rows[0]) + Enumerate(rows[1])
  {
    var rows := HeaderRows(sheet);
    if |rows| == 1 {
      assert ScanOrder(rows) == Enumerate(rows[0]) + ScanOrder(rows[1..]);
    } else if |rows| == 2 {
      assert ScanOrder(rows[1..]) == Enumerate(rows[1]) + ScanOrder(rows[1..][1..]);
    }
  }

  /** The header scan reads row 1 from left to right and then row 2:
      cell (r, c) is scanned at `ScanPos`. */
  lemma HeaderScanAt(sheet: Sheet, r: nat, c: nat)
    requires r < |HeaderRows(sheet)| && c < |HeaderRows(sheet)[r]|
    ensures var rows := HeaderRows(sheet);
            ScanPos(rows, r, c) < |ScanOrder(rows)| && ScanOrder(rows)[ScanPos(rows, r, c)] == (c, SafeStrip(rows[r][c]))
  {
    ScanAt(HeaderRows(sheet), r, c);
  }

  /** The same for any one or two rows. */
  lemma ScanAt(rows: seq<seq<Cell>>, r: nat, c: nat)
    requires r < |rows| <= 2 && c < |rows[r]|
    ensures ScanPos(rows, r, c) < |ScanOrder(rows)| && ScanOrder(rows)[ScanPos(rows, r, c)] == (c, SafeStrip(rows[r][c]))
  {
    var tail := ScanOrder(rows[1..]);
    assert ScanOrder(rows) == Enumerate(rows[0]) + tail;
    if r == 0 {
      FirstRowAt(rows[0], tail, c);
    } else {
      var rest := ScanOrder(rows[1..][1..]);
      assert tail == Enumerate(rows[1..][0]) + rest;
      assert rows[1..][0] == rows[1];
      FirstRowAt(rows[1], rest, c);
      assert ScanOrder(rows)[|rows[0]| + c] == tail[c];
    }
  }

  /** A cell of the first scanned row sits at its own column. */
  lemma FirstRowAt(row: seq<Cell>, rest: seq<(nat, string)>, c: nat)
    requires c < |row|
    ensures c < |Enumerate(row) + rest| && (Enumerate(row) + rest)[c] == (c, SafeStrip(row[c]))
  {
  }

  /** Nothing but the cells of the header rows is scanned. */
  lemma HeaderScanCovers(sheet: Sheet, p: nat)
    requires p < |ScanOrder(HeaderRows(sheet))|
    ensures var rows := HeaderRows(sheet);
            exists r, c :: 0 <= r < |rows| && 0 <= c < |rows[r]| && p == ScanPos(rows, r, c)
  {
    var rows := HeaderRows(sheet);
    HeaderScanRows(sheet);
    if p < |rows[0]| {
      assert p == ScanPos(rows, 0, p);
    } else {
      assert p == ScanPos(rows, 1, p - |rows[0]|);
    }
  }

  /** Cell (r, c) of the two header rows holds a text the index maps to `key`. */
  predicate CellMatches(sheet: Sheet, rev: map<string, string>, r: int, c: int, key: string) {
    0 <= r < |sheet| && r < 2 && 0 <= c < |sheet[r]|
    && SafeStrip(sheet[r][c]) in rev && rev[SafeStrip(sheet[r][c])] == key
  }

  /** Cell (r1, c1) is scanned before cell (r2, c2): an earlier row, or the
      same row further left. */
  predicate ScannedBefore(r1: int, c1: int, r2: int, c2: int) {
    r1 < r2 || (r1 == r2 && c1 < c2)
  }

  /** Cell (r, c) names `key`, and no cell scanned after it does. */
  ghost predicate LastNamingCell(sheet: Sheet, rev: map<string, string>, r: int, c: int, key: string) {
    CellMatches(sheet, rev, r, c, key)
    && forall r2, c2 :: ScannedBefore(r, c, r2, c2) ==> !CellMatches(sheet, rev, r2, c2, key)
  }

  /** A cell scanned after the last match for `key` does not name `key`. */
  lemma LaterCellNoMatch(sheet: Sheet, rev: map<string, string>, key: string, p: int, r: nat, c: nat)
    requires LastMatchAt(ScanOrder(HeaderRows(sheet)), rev, p, key)
    requires r < |sheet| && r < 2 && c < |sheet[r]|
    requires p < ScanPos(HeaderRows(sheet), r, c)
    ensures !CellMatches(sheet, rev, r, c, key)
  {
    var rows := HeaderRows(sheet);
    assert rows[r] == sheet[r];
    HeaderScanAt(sheet, r, c);
    assert !MatchAt(ScanOrder(rows), rev, ScanPos(rows, r, c), key);
  }

  /** No cell scanned after the last match for `key` names `key`. */
  lemma NothingAfterLastMatch(sheet: Sheet, rev: map<string, string>, key: string, p: int, r: nat, c: nat)
    requires LastMatchAt(ScanOrder(HeaderRows(sheet)), rev, p, key)
    requires r < |HeaderRows(sheet)| && c < |HeaderRows(sheet)[r]| && p == ScanPos(HeaderRows(sheet), r, c)
    ensures forall r2, c2 :: ScannedBefore(r, c, r2, c2) ==> !CellMatches(sheet, rev, r2, c2, key)
  {
    var rows := HeaderRows(sheet);
    forall r2, c2 | ScannedBefore(r, c, r2, c2)
      ensures !CellMatches(sheet, rev, r2, c2, key)
    {
      if 0 <= r2 < |sheet| && r2 < 2 && 0 <= c2 < |sheet[r2]| {
        assert rows[0] == sheet[0];
        LaterCellNoMatch(sheet, rev, key, p, r2, c2);
      }
    }
  }

  /** A resolved field takes the column of the last header cell that names
      it, in the order row 1 left to right and then row 2: no cell scanned
      after it names the same field. */
  lemma ResolveLastInScan(sheet: Sheet, cfg: Config, key: string)
    requires key in Resolve(sheet, cfg)
    ensures exists r, c :: LastNamingCell(sheet, ReverseIndex(cfg.headers), r, c, key) && c == Resolve(sheet, cfg)[key]
  {
    var rows := HeaderRows(sheet);
    var cells := ScanOrder(rows);
    var rev := ReverseIndex(cfg.headers);
    var cols := Resolve(sheet, cfg);
    var p :| LastMatchAt(cells, rev, p, key) && cells[p].0 == cols[key];
    HeaderScanCovers(sheet, p);
    var r, c :| 0 <= r < |rows| && 0 <= c < |rows[r]| && p == ScanPos(rows, r, c);
    assert CellMatches(sheet, rev, r, c, key) && c == cols[key] by {
      HeaderScanAt(sheet, r, c);
      assert rows[r] == sheet[r];
      assert cells[p] == (c, SafeStrip(sheet[r][c]));
    }
    NothingAfterLastMatch(sheet, rev, key, p, r, c);
    assert LastNamingCell(sheet, rev, r, c, key);
  }

  /** Outcome of the per-sheet check on the resolved columns. */
  datatype SheetCheck = Resolved(columns: map<string, nat>) | MissingKeys(missing: set<string>)

  lemma ProperSubsetSmaller(a: set<string>, b: set<string>, x: string)
    requires a <= b && x in b && x !in a
    ensures |a| < |b|
  {
    assert a <= b - {x};
    assert |b - {x}| == |b| - 1;
    SubsetNoLarger(a, b - {x});
  }

  lemma {:induction false} SubsetNoLarger(a: set<string>, b: set<string>)
    requires a <= b
    ensures |a| <= |b|
    decreases |a|
  {
    if a != {} {
      var x :| x in a;
      SubsetNoLarger(a - {x}, b - {x});
    }
  }

  /** A sheet is kept exactly when every required field was resolved (the
      code compares the size of the intersection with the size of the
      required set); otherwise the missing fields are reported. */
  function CheckColumns(cols: map<string, nat>): (check: SheetCheck)
    ensures check.Resolved? <==> Required <= cols.Keys
    ensures check.Resolved? ==> check.columns == cols
    ensures check.MissingKeys? ==>
              check.missing != {} && forall k :: k in check.missing <==> k in Required && k !in cols
  {
    FullIntersection(cols.Keys);
    if |cols.Keys * Required| != |Required| then MissingKeys(Required - cols.Keys) else Resolved(cols)
  }

  /** The size comparison the code makes is a subset test. */
  lemma FullIntersection(keys: set<string>)
    ensures |keys * Required| == |Required| <==> Required <= keys
  {
    if Required <= keys {
      assert keys * Required == Required;
    } else {
      var x :| x in Required && x !in keys;
      ProperSubsetSmaller(keys * Required, Required, x);
    }
  }
}

=== FILE: rows.dfy ===
/** Row normalisation: one data row, read through the resolved columns,
    becomes the five output values and the ordered list of reasons that
    decide whether the row is written, dropped silently or reported. */
module Rows {
  import opened Text
  import opened Cells
  import opened Configuration

  /** One output row: source, destination, service, action, comment. */
  datatype CanonicalRow = CanonicalRow(src: string, dst: string, srv: string, act: string, cmt: string)

  /** What happens to a data row. */
  datatype Outcome =
    | Accepted(row: CanonicalRow)
    | SilentSkip(reasons: seq<string>)
    | Reported(reasons: seq<string>)

  const Accept: string := "accept"
  const Remove: string := "remove"

  /** The reason recorded for an empty source, destination or service cell. */
  function MissReason(header: string): string {
    "Miss '" + header + "'"
  }

  /** The reason recorded when both the add and the remove flag are set. */
  function BothReason(addHeader: string, rmHeader: string): string {
    "Have Both ('" + addHeader + "'&'" + rmHeader + "')"
  }

  lemma ReasonsDiffer(h: string, a: string, r: string)
    ensures MissReason(h) != BothReason(a, r)
  {
    assert MissReason(h)[0] == 'M';
    assert BothReason(a, r)[0] == 'H';
  }

  /* ------------------------------------------------- source, destination */

  /** A non-empty source or destination: split on newline and comma and
      rejoined with "; ". Empty fragments and the spaces inside fragments
      survive, so the result is the text with each delimiter turned into
      "; " and nothing else changed. */
  function ListValue(v: string): (r: string)
    ensures r == ReplaceDelims(v)
  {
    JoinSplit(v);
    JoinWith(Split(v), "; ")
  }

  /* ------------------------------------------------------------- service */

  /** The non-empty fragments, in their order. */
  function NonEmpty(xs: seq<string>): (r: seq<string>)
    ensures |r| <= |xs|
    ensures forall x :: x in r <==> x in xs && x != ""
    ensures (forall k :: 0 <= k < |xs| ==> xs[k] != "") ==> r == xs
  {
    if |xs| == 0 then []
    else (if xs[0] == "" then [] else [xs[0]]) + NonEmpty(xs[1..])
  }

  /** Filtering works piece by piece, so it keeps the order of the
      fragments and every non-empty one, repeats included. */
  lemma {:induction false} NonEmptyAppend(a: seq<string>, b: seq<string>)
    ensures NonEmpty(a + b) == NonEmpty(a) + NonEmpty(b)
    decreases |a|
  {
    if |a| > 0 {
      assert (a + b)[0] == a[0] && (a + b)[1..] == a[1..] + b;
      NonEmptyAppend(a[1..], b);
    } else {
      assert a + b == b;
    }
  }

  /** A single fragment is kept exactly when it is not empty. */
  lemma NonEmptyOne(x: string)
    ensures NonEmpty([x]) == (if x == "" then [] else [x])
  {
    assert [x][1..] == [];
  }

  /** Port shorthand: a fragment of digits only names a TCP port. */
  function Tag(f: string): string {
    if IsDigits(f) then "TCP " + f else f
  }

  function TagAll(xs: seq<string>): (r: seq<string>)
    ensures |r| == |xs|
    ensures forall k :: 0 <= k < |xs| ==> r[k] == Tag(xs[k])
  {
    if |xs| == 0 then [] else [Tag(xs[0])] + TagAll(xs[1..])
  }

  /** A non-empty service: split on newline and comma, empty fragments
      dropped, digit-only fragments prefixed with "TCP ", joined with "; ",
      and then every substitution rule applied in order. */
  function ServiceValue(v: string, rules: seq<(string, string)>): string {
    ApplyReplacements(JoinWith(TagAll(NonEmpty(Split(v))), "; "), rules)
  }

  /** A list of non-empty, delimiter-free entries written with commas comes
      out, before any substitution, as the same entries joined with "; ",
      the digit-only ones as "TCP <port>". */
  lemma ServiceOfList(xs: seq<string>)
    requires |xs| > 0
    requires forall k :: 0 <= k < |xs| ==> xs[k] != "" && NoDelim(xs[k])
    ensures ServiceValue(JoinWith(xs, ","), []) == JoinWith(TagAll(xs), "; ")
  {
    SplitJoin(xs, ',');
  }

  /** A digit-only fragment is tagged; a fragment with anything else in it,
      a leading space for one, is left as it is. */
  lemma TagOnlyDigits(f: string)
    ensures Tag(f) != f <==> IsDigits(f)
    ensures IsDigits(f) ==> Tag(f) == "TCP " + f
  {
    if IsDigits(f) {
      assert |Tag(f)| == |f| + 4;
    }
  }

  /** Every fragment of the split is empty exactly when the text is made
      of delimiters only. */
  lemma {:induction false} SplitAllEmpty(v: string)
    ensures (forall k :: 0 <= k < |Split(v)| ==> Split(v)[k] == "")
            <==> (forall i :: 0 <= i < |v| ==> IsDelim(v[i]))
    decreases |v|
  {
    if |v| > 0 {
      var rest := Split(v[1..]);
      SplitAllEmpty(v[1..]);
      if IsDelim(v[0]) {
        assert Split(v) == [""] + rest;
        if forall i :: 0 <= i < |v[1..]| ==> IsDelim(v[1..][i]) {
          forall i | 0 <= i < |v| ensures IsDelim(v[i]) {
            if i > 0 { assert v[i] == v[1..][i - 1]; }
          }
        }
        if forall i :: 0 <= i < |v| ==> IsDelim(v[i]) {
          forall i | 0 <= i < |v[1..]| ensures IsDelim(v[1..][i]) {
            assert v[1..][i] == v[i + 1];
          }
        }
        forall k | 0 <= k < |rest| ensures Split(v)[k + 1] == rest[k] { }
      } else {
        assert Split(v)[0] == [v[0]] + rest[0];
        assert |Split(v)[0]| > 0;
      }
    }
  }

  /** A joined list is at least as long as its first entry. */
  lemma JoinWithFirst(xs: seq<string>, sep: string)
    requires |xs| > 0
    ensures |JoinWith(xs, sep)| >= |xs[0]|
  {
  }

  /** Without substitution rules, the service value is empty exactly when
      the cell holds nothing but newlines and commas: every other text
      keeps some fragment, and a kept fragment is never empty. */
  lemma ServiceEmptyIffDelimiters(v: string)
    ensures ServiceValue(v, []) == "" <==> forall i :: 0 <= i < |v| ==> IsDelim(v[i])
  {
    var xs := Split(v);
    var kept := NonEmpty(xs);
    SplitAllEmpty(v);
    assert kept == [] <==> forall k :: 0 <= k < |xs| ==> xs[k] == "" by {
      if kept == [] {
        forall k | 0 <= k < |xs| ensures xs[k] == "" {
          assert xs[k] in xs;
        }
      } else {
        assert kept[0] in kept;
      }
    }
    if kept != [] {
      assert kept[0] in kept;
      assert TagAll(kept)[0] == Tag(kept[0]);
      JoinWithFirst(TagAll(kept), "; ");
    }
  }

  /** A service cell made only of delimiters gives an empty service value,
      although the cell was not empty and no reason is recorded for it. */
  lemma ServiceOfDelimitersOnly()
    ensures ServiceValue(",", []) == ""
  {
    assert Split(",") == ["", ""];
  }

  /* -------------------------------------------------------------- action */

  /** The action written for the add and remove flags; when both are set
      nothing is assigned and the value stays "". */
  function Action(add: string, rm: string): (act: string)
    ensures act == Accept <==> add != "" && rm == ""
    ensures act == Remove <==> rm != "" && add == ""
    ensures act == "" <==> (add == "" <==> rm == "")
  {
    if add != "" && rm != "" then ""
    else if add != "" || rm != "" then (if add != "" then Accept else Remove)
    else ""
  }

  /* ------------------------------------------------------------- comment */

  /** The usage text and the comment text, each only when non-empty,
      joined with "|". */
  function Comment(usg: string, cmt: string): (r: string)
    ensures usg != "" && cmt != "" ==> r == usg + "|" + cmt
    ensures usg == "" ==> r == cmt
    ensures cmt == "" ==> r == usg
  {
    assert [usg, cmt][1..] == [cmt];
    assert NonEmpty([cmt]) == (if cmt == "" then [] else [cmt]) + NonEmpty([]);
    assert NonEmpty([usg, cmt]) == (if usg == "" then [] else [usg]) + NonEmpty([cmt]);
    assert usg != "" && cmt != "" ==> JoinWith([usg, cmt], "|") == usg + "|" + JoinWith([cmt], "|");
    JoinWith(NonEmpty([usg, cmt]), "|")
  }

  /* ----------------------------------------------------------------- row */

  /** Every field the row reads is resolved and lies inside the row;
      otherwise the code fails with a lookup or index error. */
  predicate RowFits(row: seq<Cell>, cols: map<string, nat>) {
    && Reads(row, cols, "SRC") && Reads(row, cols, "DST") && Reads(row, cols, "SRV")
    && Reads(row, cols, "ADD") && Reads(row, cols, "RM") && Reads(row, cols, "USG") && Reads(row, cols, "CMT")
  }

  /** The field is resolved and its column lies inside the row. */
  predicate Reads(row: seq<Cell>, cols: map<string, nat>, key: string) {
    key in cols && cols[key] < |row|
  }

  /** The normalised text of the cell under a field. */
  function Field(row: seq<Cell>, cols: map<string, nat>, key: string): string
    requires Reads(row, cols, key)
  {
    SafeStrip(row[cols[key]])
  }

  /** The row can be written: source, destination and service are not
      blank, and the add and remove cells are not both set. */
  predicate Writable(row: seq<Cell>, cols: map<string, nat>)
    requires RowFits(row, cols)
  {
    Field(row, cols, "SRC") != "" && Field(row, cols, "DST") != "" && Field(row, cols, "SRV") != ""
    && (Field(row, cols, "ADD") == "" || Field(row, cols, "RM") == "")
  }

  /** Source, destination and service are all blank. */
  predicate BlankLine(row: seq<Cell>, cols: map<string, nat>)
    requires RowFits(row, cols)
  {
    Field(row, cols, "SRC") == "" && Field(row, cols, "DST") == "" && Field(row, cols, "SRV") == ""
  }

  /** The normalised texts a data row holds under the seven fields. */
  datatype Fields = Fields(src: string, dst: string, srv: string, add: string, rm: string, usg: string, cmt: string)

  function ReadFields(row: seq<Cell>, cols: map<string, nat>): Fields
    requires RowFits(row, cols)
  {
    Fields(Field(row, cols, "SRC"), Field(row, cols, "DST"), Field(row, cols, "SRV"),
           Field(row, cols, "ADD"), Field(row, cols, "RM"), Field(row, cols, "USG"), Field(row, cols, "CMT"))
  }

  function Blank(s: string): nat {
    if s == "" then 1 else 0
  }

  /** How many of source, destination and service are empty. */
  function BlankCore(f: Fields): nat {
    Blank(f.src) + Blank(f.dst) + Blank(f.srv)
  }

  /** Whether both the add and the remove flag are set. */
  predicate BothFlags(f: Fields) {
    f.add != "" && f.rm != ""
  }

  /** The reasons a row fails: a "Miss" reason for each empty core field
      in the order source, destination, service, then the "Have Both"
      reason when both flags are set. */
  function Reasons(f: Fields, cfg: Config): (reasons: seq<string>)
    requires Required <= Keys(cfg.headers)
    ensures |reasons| == BlankCore(f) + (if BothFlags(f) then 1 else 0)
    ensures BothFlags(f) <==>
              |reasons| > 0
              && reasons[|reasons| - 1] == BothReason(HeaderOf(cfg.headers, "ADD"), HeaderOf(cfg.headers, "RM"))
    ensures f.src == "" ==> reasons[0] == MissReason(HeaderOf(cfg.headers, "SRC"))
    ensures f.dst == "" ==> reasons[Blank(f.src)] == MissReason(HeaderOf(cfg.headers, "DST"))
    ensures f.srv == "" ==> reasons[Blank(f.src) + Blank(f.dst)] == MissReason(HeaderOf(cfg.headers, "SRV"))
  {
    var both := BothReason(HeaderOf(cfg.headers, "ADD"), HeaderOf(cfg.headers, "RM"));
    var misses :=
      (if f.src == "" then [MissReason(HeaderOf(cfg.headers, "SRC"))] else [])
      + (if f.dst == "" then [MissReason(HeaderOf(cfg.headers, "DST"))] else [])
      + (if f.srv == "" then [MissReason(HeaderOf(cfg.headers, "SRV"))] else []);
    assert forall k :: 0 <= k < |misses| ==> misses[k] != both by {
      ReasonsDiffer(HeaderOf(cfg.headers, "SRC"), HeaderOf(cfg.headers, "ADD"), HeaderOf(cfg.headers, "RM"));
      ReasonsDiffer(HeaderOf(cfg.headers, "DST"), HeaderOf(cfg.headers, "ADD"), HeaderOf(cfg.headers, "RM"));
      ReasonsDiffer(HeaderOf(cfg.headers, "SRV"), HeaderOf(cfg.headers, "ADD"), HeaderOf(cfg.headers, "RM"));
    }
    misses + (if BothFlags(f) then [both] else [])
  }

  /** The five values a row would be written with. A core field that is
      empty keeps the value "" it starts with. */
  function Values(f: Fields, cfg: Config): (r: CanonicalRow)
    ensures f.src != "" ==> r.src == ReplaceDelims(f.src)
    ensures f.dst != "" ==> r.dst == ReplaceDelims(f.dst)
    ensures r.act == Accept <==> f.add != "" && f.rm == ""
    ensures r.act == Remove <==> f.rm != "" && f.add == ""
    ensures f.srv != "" ==> r.srv == ServiceValue(f.srv, cfg.serviceReplace)
    ensures f.src == "" ==> r.src == ""
    ensures f.dst == "" ==> r.dst == ""
    ensures f.srv == "" ==> r.srv == ""
    ensures r.act == Action(f.add, f.rm)
    ensures r.cmt == Comment(f.usg, f.cmt)
    ensures f.usg != "" && f.cmt != "" ==> r.cmt == f.usg + "|" + f.cmt
  {
    CanonicalRow(
      if f.src != "" then ListValue(f.src) else "",
      if f.dst != "" then ListValue(f.dst) else "",
      if f.srv != "" then ServiceValue(f.srv, cfg.serviceReplace) else "",
      Action(f.add, f.rm),
      Comment(f.usg, f.cmt))
  }

  /** The decision the code makes on the number of reasons: exactly three
      drop the row silently, any other non-zero number reports it, none
      writes it. A row is therefore written exactly when source,
      destination and service are non-empty and the flags are not both set,
      and dropped silently exactly when the empty core fields and a flag
      conflict add up to three. */
  function Decide(f: Fields, cfg: Config): (o: Outcome)
    requires Required <= Keys(cfg.headers)
    ensures o.Accepted? <==> BlankCore(f) == 0 && !BothFlags(f)
    ensures o.SilentSkip? <==> BlankCore(f) + (if BothFlags(f) then 1 else 0) == 3
    ensures o.Accepted? ==>
              o.row == CanonicalRow(ReplaceDelims(f.src), ReplaceDelims(f.dst),
                                    ServiceValue(f.srv, cfg.serviceReplace),
                                    Action(f.add, f.rm), Comment(f.usg, f.cmt))
    ensures !o.Accepted? ==> o.reasons == Reasons(f, cfg)
    ensures BothFlags(f) ==>
              !o.Accepted? && BothReason(HeaderOf(cfg.headers, "ADD"), HeaderOf(cfg.headers, "RM")) in o.reasons
  {
    var reasons := Reasons(f, cfg);
    if |reasons| == 3 then SilentSkip(reasons)
    else if |reasons| > 0 then Reported(reasons)
    else Accepted(Values(f, cfg))
  }

  /** One data row's outcome, as the code decides it, in terms of the
      normalised cells under the resolved columns. */
  function Normalize(row: seq<Cell>, cols: map<string, nat>, cfg: Config): (o: Outcome)
    requires RowFits(row, cols)
    requires Required <= Keys(cfg.headers)
    ensures var src, dst, srv := Field(row, cols, "SRC"), Field(row, cols, "DST"), Field(row, cols, "SRV");
            var add, rm := Field(row, cols, "ADD"), Field(row, cols, "RM");
            && (o.Accepted? <==> src != "" && dst != "" && srv != "" && (add == "" || rm == ""))
            && (o.SilentSkip? <==> Blank(src) + Blank(dst) + Blank(srv) + (if add != "" && rm != "" then 1 else 0) == 3)
            && (o.Accepted? ==>
                  o.row == CanonicalRow(ReplaceDelims(src), ReplaceDelims(dst), ServiceValue(srv, cfg.serviceReplace),
                                        Action(add, rm), Comment(Field(row, cols, "USG"), Field(row, cols, "CMT"))))
            && (!o.Accepted? ==> o.reasons == Reasons(ReadFields(row, cols), cfg))
  {
    Decide(ReadFields(row, cols), cfg)
  }

  /** A row with no source, destination or service and not both flags set
      is dropped without a report. */
  lemma BlankRowSilent(usg: string, cmt: string, add: string, rm: string, cfg: Config)
    requires Required <= Keys(cfg.headers)
    requires add == "" || rm == ""
    ensures Decide(Fields("", "", "", add, rm, usg, cmt), cfg).SilentSkip?
  {
  }

  /* ------------------------------------------- the skip rule, as intended */

  /** The decision the "skip empty line" rule evidently means: silent
      exactly when source, destination and service are all empty, whatever
      the flags say; every other row with a reason is reported. */
  function DecideIntended(f: Fields, cfg: Config): (o: Outcome)
    requires Required <= Keys(cfg.headers)
    ensures o.SilentSkip? <==> BlankCore(f) == 3
    ensures o.Reported? <==> 0 < BlankCore(f) < 3 || (BlankCore(f) == 0 && BothFlags(f))
    ensures !o.Accepted? ==> o.reasons == Reasons(f, cfg)
  {
    var reasons := Reasons(f, cfg);
    if BlankCore(f) == 3 then SilentSkip(reasons)
    else if |reasons| > 0 then Reported(reasons)
    else Accepted(Values(f, cfg))
  }

  /** One data row's outcome under the intended rule, in terms of the
      normalised cells under the resolved columns. */
  function NormalizeIntended(row: seq<Cell>, cols: map<string, nat>, cfg: Config): (o: Outcome)
    requires RowFits(row, cols)
    requires Required <= Keys(cfg.headers)
    ensures var src, dst, srv := Field(row, cols, "SRC"), Field(row, cols, "DST"), Field(row, cols, "SRV");
            var add, rm := Field(row, cols, "ADD"), Field(row, cols, "RM");
            && (o.Accepted? <==> src != "" && dst != "" && srv != "" && (add == "" || rm == ""))
            && (o.SilentSkip? <==> src == "" && dst == "" && srv == "")
            && (!o.Accepted? ==> o.reasons == Reasons(ReadFields(row, cols), cfg))
  {
    DecideIntended(ReadFields(row, cols), cfg)
  }

  /** The intended rule only moves rows between the two kinds of drop: the
      same rows are written, with the same values. */
  lemma IntendedWritesSameRows(f: Fields, cfg: Config)
    requires Required <= Keys(cfg.headers)
    ensures Decide(f, cfg).Accepted? <==> DecideIntended(f, cfg).Accepted?
    ensures Decide(f, cfg).Accepted? ==> Decide(f, cfg).row == DecideIntended(f, cfg).row
  {
  }

  /** Where the two rules differ: a row with an empty source, an empty
      destination, a service and both flags set has three reasons, so the
      code drops it without a report, although it is not an empty line. */
  lemma TwoMissesAndConflictDiffer(srv: string, add: string, rm: string, usg: string, cmt: string, cfg: Config)
    requires Required <= Keys(cfg.headers)
    requires srv != "" && add != "" && rm != ""
    ensures Decide(Fields("", "", srv, add, rm, usg, cmt), cfg).SilentSkip?
    ensures DecideIntended(Fields("", "", srv, add, rm, usg, cmt), cfg).Reported?
    ensures |DecideIntended(Fields("", "", srv, add, rm, usg, cmt), cfg).reasons| == 3
  {
  }

  /** The other side of the same rule: a row with no source, destination
      or service but both flags set has four reasons, so the code reports
      it, although it is an empty line and the flags alone do not count. */
  lemma BlankConflictDiffer(add: string, rm: string, usg: string, cmt: string, cfg: Config)
    requires Required <= Keys(cfg.headers)
    requires add != "" && rm != ""
    ensures Decide(Fields("", "", "", add, rm, usg, cmt), cfg).Reported?
    ensures |Decide(Fields("", "", "", add, rm, usg, cmt), cfg).reasons| == 4
    ensures DecideIntended(Fields("", "", "", add, rm, usg, cmt), cfg).SilentSkip?
  {
  }
}

=== FILE: scenarios.dfy ===
/** Worked rows and header layouts, proved: a complete row as the
    converter writes it, and the rows on which the skip rule as written
    departs from the `# Skip empty line` comment. */
module Scenarios {
  import opened Text
  import opened Cells
  import opened Configuration
  import opened Headers
  import opened Rows
  import opened Convert

  /** The seven fields in columns 0 to 6. */
  function Columns(): (cols: map<string, nat>)
    ensures forall k :: k in AllFields ==> k in cols && cols[k] < 7
  {
    map["SRC" := 0, "DST" := 1, "SRV" := 2, "ADD" := 3, "RM" := 4, "USG" := 5, "CMT" := 6]
  }

  /** A text whose ends are not whitespace is kept as it is. */
  predicate Unpadded(t: string) {
    t != [] && !IsSpace(t[0]) && !IsSpace(t[|t| - 1])
  }

  /** Any seven-cell row can be read through `Columns()`, each field from
      its own column. */
  lemma SevenFit(row: seq<Cell>)
    requires |row| == 7
    ensures RowFits(row, Columns())
    ensures ReadFields(row, Columns())
            == Fields(SafeStrip(row[0]), SafeStrip(row[1]), SafeStrip(row[2]), SafeStrip(row[3]),
                      SafeStrip(row[4]), SafeStrip(row[5]), SafeStrip(row[6]))
  {
    var cols := Columns();
    assert cols["SRC"] == 0 && cols["DST"] == 1 && cols["SRV"] == 2;
    assert cols["ADD"] == 3 && cols["RM"] == 4 && cols["USG"] == 5 && cols["CMT"] == 6;
    assert row[cols["SRC"]] == row[0] && row[cols["DST"]] == row[1] && row[cols["SRV"]] == row[2];
    assert row[cols["ADD"]] == row[3] && row[cols["RM"]] == row[4];
    assert row[cols["USG"]] == row[5] && row[cols["CMT"]] == row[6];
  }

  lemma UnpaddedKept(t: string)
    requires Unpadded(t)
    ensures SafeStrip(Text(t)) == t
  {
    StripUnpadded(t);
  }

  lemma UnpaddedJoin(x: string, sep: string, y: string)
    requires Unpadded(x) && Unpadded(y)
    ensures Unpadded(x + sep + y)
  {
    assert (x + sep + y)[0] == x[0];
    assert (x + sep + y)[|x + sep + y| - 1] == y[|y| - 1];
  }

  lemma DigitsUnpadded(p: string)
    requires IsDigits(p)
    ensures Unpadded(p)
  {
    assert IsDigit(p[0]) && IsDigit(p[|p| - 1]);
  }

  lemma FlagUnpadded()
    ensures Unpadded("yes")
  {
    var y := "yes";
    assert y[0] == 'y' && y[2] == 's' && |y| == 3;
  }

  /** A source list of two entries on two lines is written with "; ". */
  lemma TwoLineList(a: string, b: string)
    requires NoDelim(a) && NoDelim(b)
    ensures ReplaceDelims(a + "\n" + b) == a + "; " + b
  {
    var nl, sep := "\n", "; ";
    assert ReplaceDelims(nl) == sep by {
      assert IsDelim(nl[0]) && nl[1..] == [];
    }
    var tail := nl + b;
    ReplaceDelimsAppend(nl, b);
    ReplaceDelimsNone(b);
    assert ReplaceDelims(tail) == sep + b;
    ReplaceDelimsAppend(a, tail);
    ReplaceDelimsNone(a);
    assert a + tail == a + nl + b;
    assert a + (sep + b) == a + sep + b;
  }

  /** Two bare ports written with a comma become two TCP ports. */
  lemma TwoPorts(p: string, q: string)
    requires IsDigits(p) && IsDigits(q)
    ensures ServiceValue(p + "," + q, []) == "TCP " + p + "; TCP " + q
  {
    assert p != "" && NoDelim(p) && q != "" && NoDelim(q);
    ServiceOfList([p, q]);
    assert JoinWith([p, q], ",") == p + "," + q;
    assert TagAll([p, q]) == ["TCP " + p, "TCP " + q];
  }

  /** What the seven columns of a complete row read as. */
  lemma CompleteRowFields(a: string, b: string, d: string, p: string, q: string, flag: string)
    requires Unpadded(a) && Unpadded(b) && Unpadded(d)
    requires IsDigits(p) && IsDigits(q) && Unpadded(flag)
    ensures var row := [Text(a + "\n" + b), Text(d), Text(p + "," + q), Text(flag), Empty, Empty, Empty];
            && RowFits(row, Columns())
            && ReadFields(row, Columns()) == Fields(a + "\n" + b, d, p + "," + q, flag, "", "", "")
  {
    var src, srv := a + "\n" + b, p + "," + q;
    var row := [Text(src), Text(d), Text(srv), Text(flag), Empty, Empty, Empty];
    SevenFit(row);
    assert SafeStrip(Text(src)) == src by {
      UnpaddedJoin(a, "\n", b);
      UnpaddedKept(src);
    }
    assert SafeStrip(Text(srv)) == srv by {
      DigitsUnpadded(p);
      DigitsUnpadded(q);
      UnpaddedJoin(p, ",", q);
      UnpaddedKept(srv);
    }
    UnpaddedKept(d);
    UnpaddedKept(flag);
    assert SafeStrip(Empty) == "";
  }

  /** A complete row: a two-entry source list is rejoined with "; ", two
      bare ports become TCP ports, any text in the add column gives
      "accept", and empty usage and comment give an empty comment. */
  lemma CompleteRowAccepted(a: string, b: string, d: string, p: string, q: string, flag: string, cfg: Config)
    requires Unpadded(a) && Unpadded(b) && Unpadded(d) && NoDelim(a) && NoDelim(b) && NoDelim(d)
    requires IsDigits(p) && IsDigits(q) && Unpadded(flag)
    requires Required <= Keys(cfg.headers) && cfg.serviceReplace == []
    ensures var row := [Text(a + "\n" + b), Text(d), Text(p + "," + q), Text(flag), Empty, Empty, Empty];
            RowFits(row, Columns())
            && Normalize(row, Columns(), cfg)
               == Accepted(CanonicalRow(a + "; " + b, d, "TCP " + p + "; TCP " + q, Accept, ""))
  {
    CompleteRowFields(a, b, d, p, q, flag);
    TwoLineList(a, b);
    ReplaceDelimsNone(d);
    TwoPorts(p, q);
    assert Action(flag, "") == Accept && Comment("", "") == "";
    var f := Fields(a + "\n" + b, d, p + "," + q, flag, "", "", "");
    assert BlankCore(f) == 0 && !BothFlags(f);
  }

  lemma PortDigits()
    ensures IsDigits("80")
  {
    var port := "80";
    assert |port| == 2;
    forall i | 0 <= i < |port|
      ensures IsDigit(port[i])
    {
      if i == 0 { assert port[i] == '8'; } else { assert port[i] == '0'; }
    }
  }

  /** The silent drop: no source, no destination, a port, and both flags
      set. The code as written drops the row without a word; the intended
      rule reports its three reasons. */
  lemma ConflictRowDroppedSilently(port: string, flag: string, cfg: Config)
    requires IsDigits(port) && Unpadded(flag) && Required <= Keys(cfg.headers)
    ensures var row := [Empty, Empty, Text(port), Text(flag), Text(flag), Empty, Empty];
            RowFits(row, Columns())
            && Normalize(row, Columns(), cfg).SilentSkip?
            && NormalizeIntended(row, Columns(), cfg).Reported?
  {
    var row := [Empty, Empty, Text(port), Text(flag), Text(flag), Empty, Empty];
    SevenFit(row);
    assert SafeStrip(Text(port)) == port by {
      DigitsUnpadded(port);
      UnpaddedKept(port);
    }
    UnpaddedKept(flag);
    assert SafeStrip(Empty) == "";
    TwoMissesAndConflictDiffer(port, flag, flag, "", "", cfg);
  }

  /** The same drop on port 80 with "yes" in both flag columns. */
  lemma PortEightyBothFlags(cfg: Config)
    requires Required <= Keys(cfg.headers)
    ensures var row := [Empty, Empty, Text("80"), Text("yes"), Text("yes"), Empty, Empty];
            RowFits(row, Columns())
            && Normalize(row, Columns(), cfg).SilentSkip?
            && NormalizeIntended(row, Columns(), cfg).Reported?
  {
    PortDigits();
    FlagUnpadded();
    ConflictRowDroppedSilently("80", "yes", cfg);
  }

  /** A header text that appears twice resolves to its later column: the
      scan keeps the last match, not the first. */
  lemma RepeatedHeaderLastWins(h: string, key: string, c1: nat, c2: nat)
    ensures var cols := Scan([(c1, h), (c2, h)], map[h := key]);
            key in cols && cols[key] == c2
  {
    var cells := [(c1, h), (c2, h)];
    var rev := map[h := key];
    var cols := Scan(cells, rev);
    assert MatchAt(cells, rev, 1, key);
    var p :| LastMatchAt(cells, rev, p, key) && cells[p].0 == cols[key];
    assert p == 1;
  }
}

=== FILE: text.dfy ===
/** String operations the converter borrows from Python's `str` and `re`:
    `strip`, `isnumeric`, `re.split('\n|,', ...)`, `sep.join(...)`,
    `str.replace` and `str(int)`. Whitespace and digits are the ASCII ones. */
module Text {

  /** The ASCII characters for which Python's `str.isspace()` holds;
      these are what `str.strip()` removes. */
  predicate IsSpace(c: char) {
    c == ' ' || c == '\t' || c == '\n' || c == '\r'
    || c == '\U{B}' || c == '\U{C}'
    || c == '\U{1C}' || c == '\U{1D}' || c == '\U{1E}' || c == '\U{1F}'
  }

  predicate AllSpace(s: string) {
    forall i :: 0 <= i < |s| ==> IsSpace(s[i])
  }

  /* ---------------------------------------------------------------- strip */

  function TrimStart(s: string): (r: string)
    ensures |r| <= |s| && r == s[|s| - |r|..]
    ensures forall i :: 0 <= i < |s| - |r| ==> IsSpace(s[i])
    ensures r == [] || !IsSpace(r[0])
  {
    if |s| > 0 && IsSpace(s[0]) then
      var r := TrimStart(s[1..]);
      assert s[1..][|s| - 1 - |r|..] == s[|s| - |r|..];
      r
    else s
  }

  function TrimEnd(s: string): (r: string)
    ensures |r| <= |s| && r == s[..|r|]
    ensures forall i :: |r| <= i < |s| ==> IsSpace(s[i])
    ensures r == [] || !IsSpace(r[|r| - 1])
  {
    if |s| > 0 && IsSpace(s[|s| - 1]) then
      var r := TrimEnd(s[..|s| - 1]);
      assert s[..|s| - 1][..|r|] == s[..|r|];
      r
    else s
  }

  /** `r` is the slice of `s` at `i`, with only whitespace around it. */
  predicate PaddedAt(s: string, r: string, i: int) {
    0 <= i <= i + |r| <= |s| && r == s[i..i + |r|] && AllSpace(s[..i]) && AllSpace(s[i + |r|..])
  }

  /** Trimming the front and then the back leaves a slice of `s` with only
      whitespace around it. */
  lemma TrimBothPadded(s: string)
    ensures PaddedAt(s, TrimEnd(TrimStart(s)), |s| - |TrimStart(s)|)
  {
    var t := TrimStart(s);
    var r := TrimEnd(t);
    var i := |s| - |t|;
    assert t == s[i..];
    assert r == t[..|r|];
    assert r == s[i..i + |r|] by {
      forall k | 0 <= k < |r| ensures r[k] == s[i + k] {
        assert r[k] == t[k];
      }
    }
    assert AllSpace(s[..i]) by {
      forall k | 0 <= k < i ensures IsSpace(s[..i][k]) {
        assert s[..i][k] == s[k];
      }
    }
    var tail := s[i + |r|..];
    assert AllSpace(tail) by {
      forall k | 0 <= k < |tail| ensures IsSpace(tail[k]) {
        assert tail[k] == t[|r| + k];
      }
    }
    assert PaddedAt(s, r, i);
  }

  /** Python's `s.strip()`: the slice of `s` left once the whitespace
      around it is dropped, neither starting nor ending with whitespace. */
  function Strip(s: string): (r: string)
    ensures exists i :: PaddedAt(s, r, i)
    ensures r == [] || (!IsSpace(r[0]) && !IsSpace(r[|r| - 1]))
  {
    TrimBothPadded(s);
    TrimEnd(TrimStart(s))
  }

  lemma {:induction false} TrimStartPadding(w: string, t: string)
    requires AllSpace(w)
    requires t == [] || !IsSpace(t[0])
    ensures TrimStart(w + t) == t
    decreases |w|
  {
    if |w| > 0 {
      assert (w + t)[1..] == w[1..] + t;
      TrimStartPadding(w[1..], t);
    } else {
      assert w + t == t;
    }
  }

  lemma {:induction false} TrimEndPadding(t: string, w: string)
    requires AllSpace(w)
    requires t == [] || !IsSpace(t[|t| - 1])
    ensures TrimEnd(t + w) == t
    decreases |w|
  {
    if |w| > 0 {
      assert (t + w)[..|t + w| - 1] == t + w[..|w| - 1];
      TrimEndPadding(t, w[..|w| - 1]);
    } else {
      assert t + w == t;
    }
  }

  /** Whitespace around a text whose ends are not whitespace is exactly
      what `strip` removes. */
  lemma StripPadding(w1: string, t: string, w2: string)
    requires AllSpace(w1) && AllSpace(w2)
    requires t == [] || (!IsSpace(t[0]) && !IsSpace(t[|t| - 1]))
    ensures Strip(w1 + t + w2) == t
  {
    assert w1 + t + w2 == w1 + (t + w2);
    if t == [] {
      assert t + w2 == w2;
      TrimStartPadding(w1 + w2, []);
      assert w1 + w2 + [] == w1 + w2;
    } else {
      TrimStartPadding(w1, t + w2);
      TrimEndPadding(t, w2);
    }
  }

  /** A text whose ends are not whitespace is left as it is. */
  lemma StripUnpadded(t: string)
    requires t == [] || (!IsSpace(t[0]) && !IsSpace(t[|t| - 1]))
    ensures Strip(t) == t
  {
    var e: string := [];
    assert AllSpace(e);
    assert e + t + e == t;
    StripPadding(e, t, e);
  }

  /** `strip` is idempotent. */
  lemma StripIdempotent(s: string)
    ensures Strip(Strip(s)) == Strip(s)
  {
    var r := Strip(s);
    assert r == [] || (!IsSpace(r[0]) && !IsSpace(r[|r| - 1]));
    StripUnpadded(r);
  }

  /** `strip` yields the empty text exactly for all-whitespace input. */
  lemma StripEmptyIffAllSpace(s: string)
    ensures Strip(s) == [] <==> AllSpace(s)
  {
    if AllSpace(s) {
      var e: string := [];
      assert s == s + e + e;
      StripPadding(s, e, e);
    }
  }

  /* ------------------------------------------------------------ isnumeric */

  predicate IsDigit(c: char) {
    '0' <= c <= '9'
  }

  /** Python's `s.isnumeric()` restricted to ASCII: non-empty, digits only. */
  predicate IsDigits(s: string) {
    |s| > 0 && forall i :: 0 <= i < |s| ==> IsDigit(s[i])
  }

  /* ---------------------------------------------------- split on \n and , */

  /** The two delimiters of `re.split('\n|,', ...)`. */
  predicate IsDelim(c: char) {
    c == '\n' || c == ','
  }

  predicate NoDelim(f: string) {
    forall i :: 0 <= i < |f| ==> !IsDelim(f[i])
  }

  function CountDelims(s: string): nat {
    if |s| == 0 then 0 else (if IsDelim(s[0]) then 1 else 0) + CountDelims(s[1..])
  }

  /** `re.split('\n|,', s)`: the fragments between delimiters, empty ones
      included, so there is one fragment more than there are delimiters. */
  function Split(s: string): (r: seq<string>)
    ensures |r| == CountDelims(s) + 1
    ensures forall k :: 0 <= k < |r| ==> NoDelim(r[k])
  {
    if |s| == 0 then [""]
    else
      var rest := Split(s[1..]);
      if IsDelim(s[0]) then [""] + rest
      else [[s[0]] + rest[0]] + rest[1..]
  }

  /** Python's `sep.join(xs)`. */
  function JoinWith(xs: seq<string>, sep: string): string {
    if |xs| == 0 then ""
    else if |xs| == 1 then xs[0]
    else xs[0] + sep + JoinWith(xs[1..], sep)
  }

  /** The text with every delimiter replaced by "; " and nothing else touched. */
  function ReplaceDelims(s: string): string {
    if |s| == 0 then ""
    else (if IsDelim(s[0]) then "; " else [s[0]]) + ReplaceDelims(s[1..])
  }

  /** Replacing delimiters works piece by piece. */
  lemma {:induction false} ReplaceDelimsAppend(a: string, b: string)
    ensures ReplaceDelims(a + b) == ReplaceDelims(a) + ReplaceDelims(b)
    decreases |a|
  {
    if |a| > 0 {
      assert (a + b)[0] == a[0] && (a + b)[1..] == a[1..] + b;
      ReplaceDelimsAppend(a[1..], b);
    } else {
      assert a + b == b;
    }
  }

  /** A text without delimiters is left alone. */
  lemma {:induction false} ReplaceDelimsNone(a: string)
    requires NoDelim(a)
    ensures ReplaceDelims(a) == a
    decreases |a|
  {
    if |a| > 0 {
      ReplaceDelimsNone(a[1..]);
      assert a == [a[0]] + a[1..];
    }
  }

  lemma JoinWithHead(a: string, x: string, t: seq<string>, sep: string)
    ensures JoinWith([a + x] + t, sep) == a + JoinWith([x] + t, sep)
  {
    if |t| > 0 {
      assert ([a + x] + t)[1..] == t;
      assert ([x] + t)[1..] == t;
    }
  }

  /** Splitting on the delimiters and joining with "; " keeps every
      fragment, empty or not, exactly as it was. */
  lemma {:induction false} JoinSplit(s: string)
    ensures JoinWith(Split(s), "; ") == ReplaceDelims(s)
    decreases |s|
  {
    if |s| > 0 {
      var rest := Split(s[1..]);
      JoinSplit(s[1..]);
      if IsDelim(s[0]) {
        assert ([""] + rest)[1..] == rest;
      } else {
        assert rest == [rest[0]] + rest[1..];
        JoinWithHead([s[0]], rest[0], rest[1..], "; ");
      }
    }
  }

  lemma {:induction false} SplitPrefix(a: string, t: string)
    requires NoDelim(a)
    ensures Split(a + t) == [a + Split(t)[0]] + Split(t)[1..]
    decreases |a|
  {
    if |a| > 0 {
      assert (a + t)[0] == a[0];
      assert (a + t)[1..] == a[1..] + t;
      SplitPrefix(a[1..], t);
      assert [a[0]] + (a[1..] + Split(t)[0]) == a + Split(t)[0];
    } else {
      assert a + t == t;
      assert a + Split(t)[0] == Split(t)[0];
      assert Split(t) == [Split(t)[0]] + Split(t)[1..];
    }
  }

  /** Joining delimiter-free fragments with one delimiter and splitting
      again gives back the fragments. */
  lemma {:induction false} SplitJoin(xs: seq<string>, d: char)
    requires |xs| > 0 && IsDelim(d)
    requires forall k :: 0 <= k < |xs| ==> NoDelim(xs[k])
    ensures Split(JoinWith(xs, [d])) == xs
    decreases |xs|
  {
    if |xs| == 1 {
      SplitPrefix(xs[0], "");
      assert xs[0] + "" == xs[0];
    } else {
      var tail := JoinWith(xs[1..], [d]);
      SplitJoin(xs[1..], d);
      assert xs[0] + [d] + tail == xs[0] + ([d] + tail);
      SplitPrefix(xs[0], [d] + tail);
      assert ([d] + tail)[0] == d && ([d] + tail)[1..] == tail;
      assert Split([d] + tail) == [""] + xs[1..];
      assert xs[0] + "" == xs[0];
      assert xs == [xs[0]] + xs[1..];
    }
  }

  /* -------------------------------------------------------- str.replace */

  /** `p` occurs in `s` starting at position `i`. */
  predicate OccursAt(s: string, p: string, i: nat) {
    i + |p| <= |s| && s[i..i + |p|] == p
  }

  predicate Contains(s: string, p: string) {
    exists i: nat :: i <= |s| && OccursAt(s, p, i)
  }

  /** `rep` before every character of `s` and once more at the end: what
      Python's `s.replace("", rep)` produces. */
  function InsertEverywhere(s: string, rep: string): (r: string)
    ensures |r| == |s| + (|s| + 1) * |rep|
  {
    if |s| == 0 then rep else rep + [s[0]] + InsertEverywhere(s[1..], rep)
  }

  /** The layout of `s.replace("", rep)`: the k-th character of `s` sits
      right after the (k+1)-th copy of `rep`, which starts at k * (|rep| + 1). */
  lemma {:induction false} InsertEverywhereAt(s: string, rep: string, k: nat)
    requires k < |s|
    ensures var r := InsertEverywhere(s, rep);
            var at := k * (|rep| + 1);
            at + |rep| < |r| && r[at..at + |rep|] == rep && r[at + |rep|] == s[k]
    decreases k
  {
    var r := InsertEverywhere(s, rep);
    var tail := InsertEverywhere(s[1..], rep);
    assert r == rep + [s[0]] + tail;
    if k > 0 {
      InsertEverywhereAt(s[1..], rep, k - 1);
      var at := k * (|rep| + 1);
      var at1 := (k - 1) * (|rep| + 1);
      assert at == at1 + |rep| + 1;
      assert r[at..at + |rep|] == tail[at1..at1 + |rep|];
      assert r[at + |rep|] == tail[at1 + |rep|];
    }
  }

  /** `s.replace("", rep)` ends with a copy of `rep` after the last character. */
  lemma {:induction false} InsertEverywhereEnd(s: string, rep: string)
    ensures var r := InsertEverywhere(s, rep);
            |rep| <= |r| && r[|r| - |rep|..] == rep
    decreases |s|
  {
    if |s| > 0 {
      var r := InsertEverywhere(s, rep);
      var tail := InsertEverywhere(s[1..], rep);
      InsertEverywhereEnd(s[1..], rep);
      assert r == (rep + [s[0]]) + tail;
      assert r[|r| - |rep|..] == tail[|tail| - |rep|..];
    }
  }

  /** Python's `s.split(p)` for a non-empty `p`: the pieces between the
      non-overlapping occurrences of `p`, found left to right. */
  function SplitOn(s: string, p: string): (pieces: seq<string>)
    requires |p| > 0
    ensures |pieces| > 0
    decreases |s|
  {
    if |s| < |p| then [s]
    else if s[..|p|] == p then [""] + SplitOn(s[|p|..], p)
    else
      var rest := SplitOn(s[1..], p);
      [[s[0]] + rest[0]] + rest[1..]
  }

  /** Python's `s.replace(p, rep)`: every non-overlapping occurrence of `p`,
      scanning left to right, is replaced by `rep`. */
  function ReplaceAll(s: string, p: string, rep: string): (r: string)
    ensures |p| > 0 ==> r == JoinWith(SplitOn(s, p), rep)
    decreases |s|
  {
    if |p| == 0 then InsertEverywhere(s, rep)
    else if |s| < |p| then s
    else if s[..|p|] == p then
      var rest := SplitOn(s[|p|..], p);
      assert ([""] + rest)[1..] == rest;
      rep + ReplaceAll(s[|p|..], p, rep)
    else
      var rest := SplitOn(s[1..], p);
      assert rest == [rest[0]] + rest[1..];
      JoinWithHead([s[0]], rest[0], rest[1..], rep);
      [s[0]] + ReplaceAll(s[1..], p, rep)
  }

  /** Splitting on a non-empty pattern and joining with it again gives the
      text back: no character is lost or moved. */
  lemma SplitOnJoin(s: string, p: string)
    requires |p| > 0
    ensures JoinWith(SplitOn(s, p), p) == s
  {
    ReplaceBySelf(s, p);
  }

  /** A non-empty pattern that does not occur leaves the text unchanged. */
  lemma {:induction false} ReplaceAbsent(s: string, p: string, rep: string)
    requires |p| > 0 && !Contains(s, p)
    ensures ReplaceAll(s, p, rep) == s
    decreases |s|
  {
    if |s| >= |p| {
      assert !OccursAt(s, p, 0);
      assert s[..|p|] != p;
      forall i: nat | OccursAt(s[1..], p, i)
        ensures false
      {
        assert s[1..][i..i + |p|] == s[i + 1..i + 1 + |p|];
        assert OccursAt(s, p, i + 1);
      }
      ReplaceAbsent(s[1..], p, rep);
      assert s == [s[0]] + s[1..];
    }
  }

  /** No occurrence before `i` in `s` means none before `i - 1` in `s[1..]`,
      and an occurrence at `i` is one at `i - 1` there. */
  lemma ShiftOccurrences(s: string, p: string, i: nat)
    requires 0 < i && OccursAt(s, p, i)
    requires forall j: nat :: j < i ==> !OccursAt(s, p, j)
    ensures OccursAt(s[1..], p, i - 1)
    ensures forall j: nat :: j < i - 1 ==> !OccursAt(s[1..], p, j)
  {
    assert s[1..][i - 1..i - 1 + |p|] == s[i..i + |p|];
    forall j: nat | j < i - 1 && OccursAt(s[1..], p, j)
      ensures false
    {
      assert s[1..][j..j + |p|] == s[j + 1..j + 1 + |p|];
      assert OccursAt(s, p, j + 1);
    }
  }

  /** The leftmost occurrence of a non-empty pattern is replaced, and the
      scan resumes right after it: with `ReplaceAbsent` this determines
      `s.replace(p, rep)` for every non-empty `p`. */
  lemma ReplaceLeftmost(s: string, p: string, rep: string, i: nat)
    requires |p| > 0 && OccursAt(s, p, i)
    requires forall j: nat :: j < i ==> !OccursAt(s, p, j)
    ensures ReplaceAll(s, p, rep) == s[..i] + rep + ReplaceAll(s[i + |p|..], p, rep)
  {
    var rest := SplitOn(s[i + |p|..], p);
    SplitOnLeftmost(s, p, i);
    assert ([s[..i]] + rest)[1..] == rest;
  }

  /** Python's `s.split(p)` on a text without `p` is the text alone. */
  lemma {:induction false} SplitOnAbsent(s: string, p: string)
    requires |p| > 0 && !Contains(s, p)
    ensures SplitOn(s, p) == [s]
    decreases |s|
  {
    if |s| >= |p| {
      assert !OccursAt(s, p, 0);
      forall i: nat | OccursAt(s[1..], p, i)
        ensures false
      {
        assert s[1..][i..i + |p|] == s[i + 1..i + 1 + |p|];
        assert OccursAt(s, p, i + 1);
      }
      SplitOnAbsent(s[1..], p);
      assert s == [s[0]] + s[1..];
    }
  }

  /** The first piece of `s.split(p)` is the text before the leftmost
      occurrence of `p`; the rest is the split of the text after it. */
  lemma {:induction false} SplitOnLeftmost(s: string, p: string, i: nat)
    requires |p| > 0 && OccursAt(s, p, i)
    requires forall j: nat :: j < i ==> !OccursAt(s, p, j)
    ensures SplitOn(s, p) == [s[..i]] + SplitOn(s[i + |p|..], p)
    decreases i
  {
    if i == 0 {
      assert s[..|p|] == p;
    } else {
      assert !OccursAt(s, p, 0);
      ShiftOccurrences(s, p, i);
      SplitOnLeftmost(s[1..], p, i - 1);
      assert s[1..][i - 1 + |p|..] == s[i + |p|..];
      assert [s[0]] + s[1..][..i - 1] == s[..i];
    }
  }

  /** Replacing a pattern by itself changes nothing. */
  lemma {:induction false} ReplaceBySelf(s: string, p: string)
    ensures ReplaceAll(s, p, p) == s
    decreases |s|
  {
    if |p| == 0 {
      InsertEverywhereEmpty(s);
    } else if |s| >= |p| {
      if s[..|p|] == p {
        ReplaceBySelf(s[|p|..], p);
        assert s == s[..|p|] + s[|p|..];
      } else {
        ReplaceBySelf(s[1..], p);
        assert s == [s[0]] + s[1..];
      }
    }
  }

  lemma {:induction false} InsertEverywhereEmpty(s: string)
    ensures InsertEverywhere(s, "") == s
    decreases |s|
  {
    if |s| > 0 {
      InsertEverywhereEmpty(s[1..]);
      assert s == [s[0]] + s[1..];
    }
  }

  /** The substitution rules of the service field, applied in order. */
  function ApplyReplacements(s: string, rules: seq<(string, string)>): string
    decreases |rules|
  {
    if |rules| == 0 then s
    else ApplyReplacements(ReplaceAll(s, rules[0].0, rules[0].1), rules[1..])
  }

  /** A text in which no (non-empty) pattern occurs is a fixed point of the
      rules, so re-applying them to such a result changes nothing. */
  lemma {:induction false} ApplyReplacementsAbsent(s: string, rules: seq<(string, string)>)
    requires forall k :: 0 <= k < |rules| ==> |rules[k].0| > 0 && !Contains(s, rules[k].0)
    ensures ApplyReplacements(s, rules) == s
    decreases |rules|
  {
    if |rules| > 0 {
      ReplaceAbsent(s, rules[0].0, rules[0].1);
      ApplyReplacementsAbsent(s, rules[1..]);
    }
  }

  /** The rules are applied one after the other: applying a first list and
      then a second is applying the two lists in sequence. */
  lemma {:induction false} ApplyReplacementsAppend(s: string, a: seq<(string, string)>, b: seq<(string, string)>)
    ensures ApplyReplacements(s, a + b) == ApplyReplacements(ApplyReplacements(s, a), b)
    decreases |a|
  {
    if |a| > 0 {
      assert (a + b)[0] == a[0] && (a + b)[1..] == a[1..] + b;
      ApplyReplacementsAppend(ReplaceAll(s, a[0].0, a[0].1), a[1..], b);
    } else {
      assert a + b == b;
    }
  }

  /** One rule alone is one `str.replace`. */
  lemma ApplyOneReplacement(s: string, p: string, rep: string)
    ensures ApplyReplacements(s, [(p, rep)]) == ReplaceAll(s, p, rep)
  {
    assert [(p, rep)][1..] == [];
  }

  /* ------------------------------------------------------------ str(int) */

  function DigitChar(d: nat): (c: char)
    requires d < 10
    ensures IsDigit(c) && DigitValue(c) == d
  {
    ('0' as int + d) as char
  }

  function DigitValue(c: char): nat
    requires IsDigit(c)
  {
    (c as int - '0' as int) as nat
  }

  /** The decimal numeral of `n`, without leading zeros. */
  function NatToDecimal(n: nat): (r: string)
    ensures IsDigits(r)
    ensures r[0] == '0' <==> n == 0
    ensures r[0] == '0' ==> r == "0"
  {
    if n < 10 then [DigitChar(n)] else NatToDecimal(n / 10) + [DigitChar(n % 10)]
  }

  /** Python's `str(i)` for an integer: the digits of its magnitude, with
      no leading zero unless the integer is 0, after a "-" when negative. */
  function IntToDecimal(i: int): (r: string)
    ensures i >= 0 ==> IsDigits(r) && (r[0] == '0' <==> i == 0)
    ensures i < 0 ==> |r| > 1 && r[0] == '-' && IsDigits(r[1..]) && r[1] != '0'
  {
    if i < 0 then "-" + NatToDecimal(-i) else NatToDecimal(i)
  }

  /** The value of a digit string, the inverse of `NatToDecimal`. */
  function DecimalValue(s: string): nat
    requires forall i :: 0 <= i < |s| ==> IsDigit(s[i])
  {
    if |s| == 0 then 0 else DecimalValue(s[..|s| - 1]) * 10 + DigitValue(s[|s| - 1])
  }

  /** Python's `int(s)` on what `str(i)` produces. */
  function IntValue(s: string): int
    requires IsDigits(s) || (|s| > 1 && s[0] == '-' && IsDigits(s[1..]))
  {
    if s[0] == '-' then -(DecimalValue(s[1..]) as int) else DecimalValue(s)
  }

  lemma {:induction false} NatDecimalRoundTrip(n: nat)
    ensures DecimalValue(NatToDecimal(n)) == n
    decreases n
  {
    if n >= 10 {
      var r := NatToDecimal(n);
      NatDecimalRoundTrip(n / 10);
      assert r[..|r| - 1] == NatToDecimal(n / 10);
    }
  }

  /** `str(i)` is read back as `i`: the numeral names the integer. */
  lemma IntDecimalRoundTrip(i: int)
    ensures var s := IntToDecimal(i);
            (IsDigits(s) || (|s| > 1 && s[0] == '-' && IsDigits(s[1..]))) && IntValue(s) == i
  {
    if i < 0 {
      var d := NatToDecimal(-i);
      var s := "-" + d;
      assert s == IntToDecimal(i);
      assert s[0] == '-' && s[1..] == d && |s| > 1;
      assert IntValue(s) == -(DecimalValue(d) as int);
      NatDecimalRoundTrip(-i);
    } else {
      var s := NatToDecimal(i);
      assert s == IntToDecimal(i);
      assert s[0] != '-' by { assert IsDigit(s[0]); }
      assert IntValue(s) == DecimalValue(s);
      NatDecimalRoundTrip(i);
    }
  }
}
